=== FILE: README.md ===
# Meeting Memo Pro, modelled in Dafny

Meeting Memo Pro is a single-page web application: a user signs in with a
mock account, submits a meeting recording, an uploaded audio file or a pasted
transcript, a summarisation service answers with a summary, key points,
action items, follow-ups and a transcript, and the application files the
answer as a memo in the user's history. The history can be searched, a memo
can be opened, deleted or exported as a Markdown file, and the session and the
memo collection survive a reload through browser storage.

This project models the application's own logic as pure Dafny functions over
immutable values, and proves what that logic promises.

- `Types` (`types.ts`): users, action items, memos, the five screens, the
  service's answer.
- `Controller` (`App.tsx`): the application state record and one transition
  per user action or completion: submitting the sign-in form, the delivery
  of a pending sign-in once its simulated delay runs out, sign-out,
  starting a submission, the completion of any request in flight (prepared,
  answered, filed or failed), opening the history, going back, opening and
  deleting a memo, exporting the memo being viewed. Which events each screen
  offers is `Controller.Enabled`; the header, sign-out included, is offered
  on the processing screen too, and pending sign-ins and requests complete
  on any screen. The summarisation service, the generated id, the
  clock and the locale-formatted date are parameters of the completion.
- `Payload` (`App.tsx`): the base64 payload cut out of a data URL, the
  MIME-type fallbacks, and the request built from each kind of input.
- `Markdown` (`App.tsx`): the exported document and its file name, with a
  positional reader that recovers the title, date, summary and the three
  sections from the downloaded text.
- `History` (`components/MeetingHistory.tsx`): the case-insensitive search and
  the newest-first stable sort.
- `Recorder` (`components/AudioRecorder.tsx`): the `m:ss` elapsed-time label,
  the start/stop guard, the one-second counter, the recorded chunks, and the
  blob handed on by the recorder's stop event.
- `Auth` (`components/Auth.tsx`): the sign-in/sign-up form and the mock user
  a submission builds.
- `Store` (`App.tsx`, `components/Auth.tsx`): the two storage entries as
  values, start-up restoration and the writes after each event.
- `Text`, `Numerals`, `Seqs`, `Wrappers`: the string operations the code uses
  with JavaScript's meaning (`split`, `join`, `includes`, `toLowerCase`,
  `toString`, `padStart`), `filter` on sequences, and `Option`/`Result`.

Behaviour as the code has it, where a reader might expect otherwise:

- A submission is guarded only on a signed-in user, not on the screen. The
  header stays visible while a request is in flight, so a user can sign out
  before the answer arrives; the answer then still opens the result screen
  with nobody signed in, and the memo is filed under the user who started it
  (`Controller.SignOutWhileProcessing`). So the sign-in screen is shown only
  when nobody is signed in, but not whenever nobody is.
- One request at a time is not enforced. The logo leaves the processing
  screen while a request is pending, and only the transcript button looks at
  the indicator; the file input and the recorder do not. So a second
  submission can start before the first is answered, and when the first
  answer arrives the indicator goes off while the second is still pending
  (`Controller.TwoInFlight`).
- The sign-in form hands its user over only after a 1.2 second delay, on
  whatever screen is up by then: a sign-in delivered after a sign-out during
  processing moves from the result screen to the landing screen
  (`Controller.Deliver`). Until then nothing is stored, so a reload in
  between loses the sign-in (`Store.SessionSurvivesReload`). The form is
  mounted afresh whenever the sign-in screen comes back, not waiting, so a
  second sign-in can be submitted while the first is pending; each is
  delivered in turn and the later delivery is the one signed in.
- Every sign-in gets a fresh id, and the history lists only the memos
  filed under the signed-in id. So signing out and in again, even with the
  same email, opens an empty history; the earlier memos stay in the
  collection and in storage, owned by no one who can sign in
  (`Controller.ReloginHidesEarlierMemos`).
- The recorder is started without a timeslice, so its data arrives in one
  chunk after stop is pressed and before its stop event; the blob holds that
  chunk (`Recorder.FinalChunkInBlob`).
- The collection is written to storage only when it is non-empty, so deleting
  the last memo is not persisted and the memo is back after a reload
  (`Store.DeletedLastMemoReturns`).
- Signing out keeps the memo being viewed; it is simply no longer shown.
- A failed file read rejects with an error that has no message, so the
  default error text is shown.

## Model

| member | source | states |
|---|---|---|
| Controller.SignIn | App.tsx:237-240 | the user handed over by the form is signed in and the landing screen is shown; nothing else changes |
| Controller.Deliver | components/Auth.tsx:21-31 | when its delay runs out, a pending sign-in leaves the pending list and the user built from its form is signed in on the landing screen, whatever screen was up; nothing else changes |
| Controller.ReloginHidesEarlierMemos | components/Auth.tsx:21-26 | a delivered sign-in has a fresh id, so the new user's history is empty and the earlier memos stay in the collection, even for the same email |
| Controller.SignOut | App.tsx:60-64 | nobody is signed in and the sign-in screen is shown; the collection and the memo last viewed are kept |
| Controller.Begin | App.tsx:84-91 | without a user nothing happens; otherwise the processing screen, the indicator on, the previous error cleared, progress at 10, and the request added to those in flight on behalf of the signed-in user |
| Controller.NewMemo | App.tsx:115-125 | the filed memo carries the generated id and time, the title "Meeting - " plus the locale date, every field of the answer, and the submitting user's id |
| Controller.Succeed | App.tsx:127-129 | the new memo goes in front of the collection, which is otherwise unchanged, and is shown on the result screen |
| Controller.ErrorText | App.tsx:132 | the error's own message when it has one, the default text otherwise; never empty |
| Controller.Fail | App.tsx:130-137 | a failure returns to the landing screen with the error shown, adds no memo and keeps the viewed memo |
| Controller.Outcome | App.tsx:93-112 | a payload that cannot be prepared fails with that error and never reaches the service; otherwise the service's answer or error |
| Controller.Complete | App.tsx:112-137 | a completion removes exactly its request from those in flight and turns the indicator off; a failure shows its error on the landing screen with no new memo; an answer files one memo owned by the request's starter at the front and shows it, whoever is signed in now |
| Controller.HandleProcessing | App.tsx:84-138 | a whole submission: no-op without a user; a preparation failure or a service failure lands on the landing screen with that error and no new memo; a service answer files exactly one new memo at the front and shows it; the indicator ends off |
| Controller.HistoryMemos | App.tsx:521 | the history lists exactly the signed-in user's memos, in collection order and with their multiplicities; nothing when no one is signed in |
| Controller.SelectMemo | App.tsx:522-525 | opening a memo shows it on the result screen and changes nothing else |
| Controller.OpenHistory | App.tsx:207 | the history screen is shown and nothing else changes |
| Controller.OpenLanding | App.tsx:198 | the landing screen is shown and nothing else changes |
| Controller.DeleteMemo | App.tsx:152-158 | every memo with the id goes, every other memo stays with its multiplicity and order; the viewed memo is dropped with a return to landing exactly when it had that id |
| Controller.ExportCurrent | App.tsx:160-161 | there is a download exactly when a memo is being viewed, named and rendered from that memo |
| Controller.SucceedExtendsHistory | App.tsx:127 | a filed memo appears at the front of its owner's history, ahead of that user's earlier memos |
| Controller.DeleteNarrowsHistory | App.tsx:526 | after a delete the user's history holds exactly the memos it held before except those with the deleted id |
| Controller.Enabled | App.tsx:195-528 | on the processing screen only the header's controls (logo, history, sign-out), completions of requests in flight and deliveries of pending sign-ins are possible; the sign-in form submits only on the sign-in screen, from a form that is not waiting |
| Controller.Step | App.tsx:60-158 | only a delivered sign-in and a sign-out change who is signed in; only a completion and a delete change the collection; only a start and a completion change what is in flight; only submitting and delivering a sign-in change the pending sign-ins |
| Controller.SignOutWhileProcessing | App.tsx:115-129 | submitting, signing out and then receiving the answer is a possible run from the landing screen that keeps the state valid and ends on the result screen with nobody signed in, the memo filed under the starting user and absent from any history list |
| Controller.TwoInFlight | App.tsx:264-300 | from the landing screen, a transcript submission, the logo and an audio submission are a possible run that leaves two requests in flight; the first answer then turns the indicator off with one request still in flight |
| Controller.StepValid | App.tsx:195-528 | each possible event keeps: the sign-in screen only with nobody signed in, the result screen with a memo to show, the processing screen only while loading, loading only with a request in flight, the bar at 10 exactly while loading |
| Controller.RunValid | App.tsx:195-528 | any run of possible events from a valid state ends in a valid state |
| Controller.StepNewestFirst | App.tsx:127 | with a clock that never goes back, every event keeps the collection newest first |
| Payload.ExtractBase64 | App.tsx:72-77 | the payload is the non-empty, comma-free second comma-separated field; otherwise the extraction error |
| Payload.ExtractBase64Of | App.tsx:72 | a header, a comma and a non-empty payload followed by nothing or more fields yields exactly that payload |
| Payload.ExtractBase64Position | App.tsx:72 | every extracted payload starts right after the first comma and runs to the next comma or the end |
| Payload.ExtractBase64Fails | App.tsx:73-76 | extraction fails exactly when there is no comma or nothing follows the first comma before the next comma or the end |
| Payload.ChooseMimeType | App.tsx:100-108 | the blob's type, "audio/webm" for an empty type, "audio/mpeg" for any type containing "octet-stream"; never empty and never containing "octet-stream" |
| Payload.BuildRequest | App.tsx:93-112 | a transcript is sent with empty payload and type; audio is sent with its extracted payload and chosen type, or fails with the extraction error; an unreadable blob fails with no message |
| Payload.EmptyRecordingRejected | App.tsx:73-76 | a data URL with nothing after its comma is rejected before any request is made |
| Markdown.FileName | App.tsx:186 | "meeting-summary-", at most the first eight characters of the id, ".md" |
| Markdown.FileNameCollision | App.tsx:186 | two memos share a file name exactly when their ids agree on the first eight characters |
| Markdown.Document | App.tsx:162-180 | the document opens with the "# " title line and ends with the footer, nothing after it |
| Markdown.Export | App.tsx:160-189 | no download without a memo; otherwise the memo's file name and its document |
| Markdown.DocumentJoin | App.tsx:169-176 | the document is the join of its lines with every section's items on lines of their own, an empty section leaving one empty line |
| Markdown.DocumentSplit | App.tsx:162-180 | for one-line fields, splitting the document at newlines gives exactly those lines |
| Markdown.ReadSectionOf | App.tsx:170-176 | a section of non-empty items followed by a blank line reads back to exactly those items, in order, leaving the rest |
| Markdown.ReadActionLineOf | App.tsx:173 | an action line whose owner has no asterisk reads back to its owner and its task |
| Markdown.ReadDocumentLines | App.tsx:162-180 | the document's lines read by position give back the title, the date, the summary and the three lists |
| Markdown.ExportRoundTrip | App.tsx:160-180 | the downloaded text of a memo with one-line fields and asterisk-free owners reads back to its title, the date, its summary and its key points, action items and follow-ups, each exactly and in order |
| History.Insert | components/MeetingHistory.tsx:19 | inserting into a newest-first list gives a newest-first list with one more element |
| History.SortNewestFirst | components/MeetingHistory.tsx:19 | the result is newest first and a permutation of the input |
| History.Search | components/MeetingHistory.tsx:16-19 | the listed memos are newest first and are exactly the matching memos, each as often as in the collection |
| History.MatchesOccurs | components/MeetingHistory.tsx:17-18 | a memo matches exactly when the lower-cased term occurs at some position of the lower-cased title or summary |
| History.SearchEmptyTerm | components/MeetingHistory.tsx:17-18 | the empty term lists every memo |
| History.SortStable | components/MeetingHistory.tsx:19 | memos with equal timestamps keep their relative order |
| History.SortKeepsNewestFirst | components/MeetingHistory.tsx:19 | a list already newest first is left as it is |
| History.SearchOrderedCollection | components/MeetingHistory.tsx:16-19 | on a newest-first collection the search lists the matching memos in collection order |
| Recorder.TwoDigits | components/AudioRecorder.tsx:57 | a number below 100 padded to exactly two digits that read back as the number |
| Recorder.FormatTime | components/AudioRecorder.tsx:54-58 | the label is the minutes in decimal, a colon, and two digits reading back as the seconds below 60 |
| Recorder.FormatTimeRoundTrip | components/AudioRecorder.tsx:54-58 | the label reads back to the number of seconds it was made from |
| Recorder.FormatTimeInjective | components/AudioRecorder.tsx:54-58 | different counters never show the same label |
| Recorder.Start | components/AudioRecorder.tsx:17-44 | a granted microphone starts recording with the counter at zero and no chunks; a refusal changes nothing |
| Recorder.DataAvailable | components/AudioRecorder.tsx:24-26 | a chunk is appended exactly when it holds data |
| Recorder.Tick | components/AudioRecorder.tsx:37-39 | the counter advances by one while recording and nothing else changes |
| Recorder.Stop | components/AudioRecorder.tsx:46-52 | only an existing, recording recorder is asked to stop; recording ends, nothing is handed on yet, and otherwise nothing changes |
| Recorder.Stopped | components/AudioRecorder.tsx:28-31 | the stop event after a requested stop hands on one blob of the chunks collected by then, typed "audio/webm"; without a requested stop, no blob |
| Recorder.FinalChunkInBlob | components/AudioRecorder.tsx:24-34 | a chunk delivered between the stop request and the stop event is in the blob, after the chunks collected before |
| Recorder.ElapsedAfterStart | components/AudioRecorder.tsx:35-39 | after a start and n ticks the counter shows n |
| Recorder.RunValid | components/AudioRecorder.tsx:24-29 | any event sequence keeps every kept chunk non-empty, so no blob ever contains an empty chunk |
| Auth.ToggleMode | components/Auth.tsx:113 | the mode flips and the fields stay |
| Auth.Submit | components/Auth.tsx:17-33 | the stored and the signed-in user are the same record, with the generated id and the entered email; sign-up uses the entered name, sign-in the part of the email before its first "@" |
| Auth.DisplayName | components/Auth.tsx:26 | sign-up uses the entered name; sign-in uses the longest "@"-free prefix of the email, which ends at the first "@" or at the end |
| Auth.SignInName | components/Auth.tsx:26 | signing in as local@domain names the user local; an email without "@" names the user by the whole email |
| Store.Restore | App.tsx:39-51 | a stored user is signed in again on the landing screen, otherwise the sign-in screen; the stored collection or none is loaded |
| Store.SaveMemos | App.tsx:54-58 | a non-empty collection is written; an empty one leaves storage as it is |
| Store.SaveSession | components/Auth.tsx:29 | the built user is stored and the collection entry is untouched |
| Store.ClearSession | App.tsx:61 | the stored user is removed and the collection entry is untouched |
| Store.Persist | App.tsx:53-64 | a delivered sign-in stores the built user, a sign-out removes the stored user, other events leave it; the collection after the event is written when non-empty, otherwise the stored one stays |
| Store.RestoreSynced | App.tsx:39-51 | right after start-up the application agrees with storage |
| Store.StepSynced | App.tsx:53-64 | every event with its storage writes keeps storage agreeing with the signed-in user and any non-empty collection |
| Store.ReloadResumes | App.tsx:39-51 | a reload with a non-empty collection restores the same user and the same collection |
| Store.SessionSurvivesReload | components/Auth.tsx:21-31 | a delivered sign-in is restored after a reload on the landing screen; after a sign-out a reload shows the sign-in screen; a sign-in still waiting out its delay leaves the stored session as it was |
| Store.DeletedLastMemoReturns | App.tsx:55 | deleting the only memo empties the collection, yet a reload brings it back |
| Text.JoinSplit | App.tsx:72 | splitting a string and joining the fields with the same separator gives the string back |
| Text.SplitJoin | App.tsx:170 | joining non-empty separator-free lines and splitting again gives the lines back |
| Text.IncludesOccurs | components/MeetingHistory.tsx:17 | includes holds exactly when the pattern occurs at some position |
| Numerals.ValueDecimal | components/AudioRecorder.tsx:57 | the decimal rendering of a number reads back as the number |
| Numerals.PadZerosValue | components/AudioRecorder.tsx:57 | padding with leading zeros keeps the value and reaches the width |
| Seqs.Filter | App.tsx:153 | the kept elements are exactly those satisfying the test, each as often as in the input |
| Seqs.FilterAppend | App.tsx:127 | filtering a concatenation is the concatenation of the filtered parts |

## Left out

- The summarisation service (`services/geminiService.ts`) is a function parameter of the submission; its prompt, schema and network call are not part of this model.
- The JSON encoding of the storage entries is not modelled: `Store` holds values, so a stored entry that fails to parse, which the code does not guard against at start-up, has no counterpart.
- The file reader, the media recorder, microphone access and the one-second interval timer are external: their outcomes are the `Payload.Input` alternatives and the `Recorder` events.
- Real base64 encoding is not modelled: the data URL is given as a string.
- The random id, the clock and the locale-formatted dates are parameters (`Controller.Fresh`, the export's date text).
- The intermediate progress values 30, 60 and 90 are not modelled: the bar shows 10 from the start of a submission to its completion.
- The upload type check is only a console warning and does not change what is submitted, so it is left out.
- The transcript button's guard on a non-blank transcript is not part of `Controller.Enabled`, because whitespace trimming is not modelled; its guard on no request loading is.
- Rendering, styling, alerts, clipboard copy and the sync buttons are presentation only.
- History.Matches: lower-cases ASCII letters only, because the full Unicode case mapping of `toLowerCase` is out of scope.
- History.SortNewestFirst: assumes a stable sort, as current JavaScript engines guarantee, and compares timestamps directly rather than through the subtraction the comparator uses.
- Controller.Enabled: an audio submission is offered only on the landing screen. The recorder hands its blob over from its stop event, just after stop is pressed, and a navigation in that short window is not modelled.
- Recorder.Tick: the timer is tied to the recording flag; the interval the code clears on stop is not a separate value.
- Markdown.ExportRoundTrip: a title, date, summary or item with a newline, or an owner with an asterisk, makes the text ambiguous, so the read-back is promised only without them.

=== FILE: auth.dfy ===
/** The mock sign-in form: no credentials are checked; submitting builds a user
    with a fresh id, the entered email, and a name that is either the part of
    the email before its first `@` (sign in) or the entered name (sign up). */
module Auth {
  import Text
  import opened Types

  /** The form's state: sign-in or sign-up mode, the three fields, and whether
      a submission is in progress. */
  datatype AuthForm = AuthForm(isLogin: bool, email: string, password: string, name: string, isLoading: bool)

  /** The link under the form switches between sign-in and sign-up and leaves
      the fields as they are. */
  function ToggleMode(f: AuthForm): (r: AuthForm)
    ensures r.isLogin != f.isLogin
    ensures r.(isLogin := f.isLogin) == f
  {
    f.(isLogin := !f.isLogin)
  }

  /** The user name a submission records. */
  function DisplayName(isLogin: bool, email: string, name: string): (r: string)
    ensures !isLogin ==> r == name
    ensures isLogin ==> r <= email && '@' !in r
    ensures isLogin ==> |r| == |email| || email[|r|] == '@'
  {
    if isLogin then
      Text.FirstField(email, '@');
      Text.Split(email, '@')[0]
    else name
  }

  /** What a submission does once its simulated delay is over: the record
      written to storage, the record handed to the application, and the form
      with its spinner off. */
  datatype Submission = Submission(stored: User, signedIn: User, form: AuthForm)

  /** Submitting the form with `freshId` as the generated user id. */
  function Submit(f: AuthForm, freshId: string): (r: Submission)
    ensures r.stored == r.signedIn
    ensures r.signedIn.id == freshId
    ensures r.signedIn.email == f.email
    ensures !f.isLogin ==> r.signedIn.name == f.name
    ensures f.isLogin ==>
      && '@' !in r.signedIn.name
      && r.signedIn.name <= f.email
      && (|r.signedIn.name| == |f.email| || f.email[|r.signedIn.name|] == '@')
    ensures r.form == f.(isLoading := false)
  {
    Text.FirstField(f.email, '@');
    var user := User(freshId, f.email, DisplayName(f.isLogin, f.email, f.name));
    Submission(user, user, f.(isLoading := false))
  }

  /** Signing in with `local@domain`, where `local` has no `@`, names the user
      `local`; an email without `@` names the user by the whole email. */
  lemma SignInName(local: string, domain: string)
    requires '@' !in local
    ensures DisplayName(true, local + "@" + domain, "") == local
    ensures DisplayName(true, local, "") == local
  {
    Text.SplitAfterField(local, domain, '@');
    Text.SplitNoSeparator(local, '@');
  }
}

=== FILE: controller.dfy ===
/** The application's session and navigation controller: which screen is shown,
    who is signed in, the memo collection, the memo being viewed, the last
    processing error, and the in-flight indicator. Each user action or
    completion is a pure transition on that record; the generated id, the
    clock, the locale-formatted date and the summarisation service's answer
    are parameters. */
module Controller {
  import opened Wrappers
  import opened Types
  import Seqs
  import Payload
  import History
  import Markdown
  import Auth

  /** A request in flight: the user who started it, whose id the resulting
      memo carries, and what was submitted. */
  datatype Request = Request(owner: User, input: Payload.Input)

  /** The application state. `progress` is the percentage shown by the
      processing bar; `inFlight` holds the requests started and not yet
      answered, oldest first; `pendingSignIns` holds the sign-in forms
      submitted whose simulated delay has not yet run out, oldest first. */
  datatype State = State(
    screen: Screen,
    user: Option<User>,
    memos: seq<Memo>,
    current: Option<Memo>,
    error: Option<string>,
    loading: bool,
    progress: nat,
    inFlight: seq<Request>,
    pendingSignIns: seq<Auth.AuthForm>)

  /** The state before the stored session and memos are read. */
  const Blank: State := State(AuthScreen, None, [], None, None, false, 0, [], [])

  /** The values a completed request draws from the environment: a fresh
      random id, the current time in milliseconds, and the current date and
      time rendered in the user's locale. */
  datatype Fresh = Fresh(id: string, timestamp: int, localeNow: string)

  /** The summarisation service, seen as a function from request to answer or
      error message. */
  type Service = Payload.AiRequest -> Result<GeminiResponse, string>

  const TitlePrefix: string := "Meeting - "
  const DefaultError: string :=
    "An error occurred during audio processing. Please check your file format and try again."
  /** The progress shown as soon as processing starts. */
  const StartProgress: nat := 10

  /** Memos owned by the user with id `uid`. */
  function OwnedBy(uid: string): Memo -> bool
  {
    (m: Memo) => m.userId == uid
  }

  /** Memos whose id is not `id`. */
  function OtherThan(id: string): Memo -> bool
  {
    (m: Memo) => m.id != id
  }

  // Session.

  /** The sign-in form handed over a user: that user is signed in and the
      landing screen is shown. */
  function SignIn(st: State, u: User): (r: State)
    ensures r.user == Some(u) && r.screen == LandingScreen
    ensures r.(user := st.user, screen := st.screen) == st
  {
    st.(user := Some(u), screen := LandingScreen)
  }

  /** The `k`-th pending sign-in runs out its delay: it leaves the pending
      list and the user it builds, with `freshId` as the generated id, is
      signed in on the landing screen, whatever screen is up by then. */
  function Deliver(st: State, k: nat, freshId: string): (r: State)
    requires k < |st.pendingSignIns|
    ensures r.pendingSignIns == st.pendingSignIns[..k] + st.pendingSignIns[k + 1..]
    ensures r.user == Some(Auth.Submit(st.pendingSignIns[k], freshId).signedIn)
    ensures r.screen == LandingScreen
    ensures r.(user := st.user, screen := st.screen, pendingSignIns := st.pendingSignIns) == st
  {
    var u := Auth.Submit(st.pendingSignIns[k], freshId).signedIn;
    SignIn(st.(pendingSignIns := st.pendingSignIns[..k] + st.pendingSignIns[k + 1..]), u)
  }

  /** Signing out: back to the sign-in screen with nobody signed in; the memo
      collection, the memo last viewed and any request in flight stay as they
      are. */
  function SignOut(st: State): (r: State)
    ensures r.user.None? && r.screen == AuthScreen
    ensures r.memos == st.memos && r.current == st.current && r.inFlight == st.inFlight
    ensures r.(user := st.user, screen := st.screen) == st
  {
    st.(user := None, screen := AuthScreen)
  }

  // Processing.

  /** Processing starts: the processing screen, the indicator on, the previous
      error cleared, and the request recorded as in flight on behalf of the
      signed-in user. Without a signed-in user nothing happens at all. */
  function Begin(st: State, input: Payload.Input): (r: State)
    ensures st.user.None? ==> r == st
    ensures st.user.Some? ==>
      && r.screen == ProcessingScreen && r.loading && r.error.None? && r.progress == StartProgress
      && r.user == st.user && r.memos == st.memos && r.current == st.current
      && r.inFlight == st.inFlight + [Request(st.user.value, input)]
  {
    if st.user.None? then st
    else st.(screen := ProcessingScreen, loading := true, error := None, progress := StartProgress,
             inFlight := st.inFlight + [Request(st.user.value, input)])
  }

  /** The memo built from a successful answer. */
  function NewMemo(resp: GeminiResponse, owner: User, env: Fresh): (m: Memo)
    ensures m.id == env.id && m.timestamp == env.timestamp
    ensures m.title == TitlePrefix + env.localeNow
    ensures m.summary == resp.summary && m.keyPoints == resp.keyPoints
    ensures m.actionItems == resp.actionItems && m.followUps == resp.followUps
    ensures m.transcript == Some(resp.transcript)
    ensures m.userId == owner.id
  {
    Memo(env.id, env.timestamp, TitlePrefix + env.localeNow, resp.summary,
         resp.keyPoints, resp.actionItems, resp.followUps, Some(resp.transcript), owner.id)
  }

  /** The request succeeded: the new memo, owned by the user who started the
      request, goes in front of the collection and is shown on the result
      screen; the indicator is off and the bar reset. */
  function Succeed(st: State, owner: User, resp: GeminiResponse, env: Fresh): (r: State)
    ensures |r.memos| == |st.memos| + 1
    ensures r.memos[0] == NewMemo(resp, owner, env) && r.memos[1..] == st.memos
    ensures r.current == Some(r.memos[0])
    ensures r.screen == ResultScreen
    ensures !r.loading && r.progress == 0
    ensures r.user == st.user && r.error == st.error && r.inFlight == st.inFlight
  {
    var memo := NewMemo(resp, owner, env);
    st.(memos := [memo] + st.memos, current := Some(memo), screen := ResultScreen,
        loading := false, progress := 0)
  }

  /** The message shown for a failure: its own message, or the default text
      when it has none. */
  function ErrorText(message: string): (t: string)
    ensures t != ""
    ensures message != "" ==> t == message
    ensures message == "" ==> t == DefaultError
  {
    if message == "" then DefaultError else message
  }

  /** The request failed: back to the landing screen with the error shown; no
      memo is added and the memo being viewed is kept. */
  function Fail(st: State, message: string): (r: State)
    ensures r.screen == LandingScreen
    ensures r.error == Some(ErrorText(message))
    ensures !r.loading && r.progress == 0
    ensures r.memos == st.memos && r.current == st.current && r.user == st.user
    ensures r.inFlight == st.inFlight
  {
    st.(error := Some(ErrorText(message)), screen := LandingScreen, loading := false, progress := 0)
  }

  /** What a request comes to: a failure while preparing the payload never
      reaches the service; otherwise the service's answer. */
  function Outcome(req: Request, ai: Service): (o: Result<GeminiResponse, string>)
    ensures Payload.BuildRequest(req.input).Failure? ==> o == Failure(Payload.BuildRequest(req.input).error)
    ensures Payload.BuildRequest(req.input).Success? ==> o == ai(Payload.BuildRequest(req.input).value)
  {
    match Payload.BuildRequest(req.input)
    case Failure(e) => Failure(e)
    case Success(q) => ai(q)
  }

  /** The `k`-th request in flight completes: it leaves the in-flight list, and
      its outcome is filed as a memo of the user who started it or shown as an
      error, whoever is signed in now and whatever screen is up. */
  function Complete(st: State, k: nat, ai: Service, env: Fresh): (r: State)
    requires k < |st.inFlight|
    ensures r.inFlight == st.inFlight[..k] + st.inFlight[k + 1..]
    ensures !r.loading && r.progress == 0 && r.user == st.user
    ensures Outcome(st.inFlight[k], ai).Failure? ==>
      && r.screen == LandingScreen
      && r.error == Some(ErrorText(Outcome(st.inFlight[k], ai).error))
      && r.memos == st.memos && r.current == st.current
    ensures Outcome(st.inFlight[k], ai).Success? ==>
      && r.screen == ResultScreen
      && r.memos == [NewMemo(Outcome(st.inFlight[k], ai).value, st.inFlight[k].owner, env)] + st.memos
      && r.current == Some(r.memos[0])
      && r.error == st.error
  {
    var req := st.inFlight[k];
    var rest := st.(inFlight := st.inFlight[..k] + st.inFlight[k + 1..]);
    match Outcome(req, ai)
    case Failure(e) => Fail(rest, e)
    case Success(resp) =>
      var r := Succeed(rest, req.owner, resp, env);
      assert r.memos == [r.memos[0]] + r.memos[1..];
      r
  }

  /** One submission from start to finish with nothing in between, the
      service's answer given by `ai`: no-op without a user; otherwise the
      payload is prepared (a failure there never reaches the service), the
      service is asked, and the request succeeds or fails. */
  function HandleProcessing(st: State, input: Payload.Input, ai: Service, env: Fresh): (r: State)
    ensures st.user.None? ==> r == st
    ensures st.user.Some? ==> !r.loading && r.progress == 0 && r.user == st.user && r.inFlight == st.inFlight
    ensures st.user.Some? && Payload.BuildRequest(input).Failure? ==>
      && r.screen == LandingScreen
      && r.error == Some(ErrorText(Payload.BuildRequest(input).error))
      && r.memos == st.memos && r.current == st.current
    ensures (st.user.Some? && Payload.BuildRequest(input).Success?
      && ai(Payload.BuildRequest(input).value).Failure?) ==>
      && r.screen == LandingScreen
      && r.error == Some(ErrorText(ai(Payload.BuildRequest(input).value).error))
      && r.memos == st.memos && r.current == st.current
    ensures (st.user.Some? && Payload.BuildRequest(input).Success?
      && ai(Payload.BuildRequest(input).value).Success?) ==>
      && r.screen == ResultScreen
      && r.memos == [NewMemo(ai(Payload.BuildRequest(input).value).value, st.user.value, env)] + st.memos
      && r.current == Some(r.memos[0])
      && r.error.None?
  {
    if st.user.None? then st
    else
      var started := Begin(st, input);
      var k := |st.inFlight|;
      assert started.inFlight[k] == Request(st.user.value, input);
      assert started.inFlight[..k] + started.inFlight[k + 1..] == st.inFlight;
      Complete(started, k, ai, env)
  }

  // History.

  /** The list handed to the history screen: the signed-in user's memos, in
      collection order; nobody's when no one is signed in. */
  function HistoryMemos(st: State): (r: seq<Memo>)
    ensures st.user.None? ==> r == []
    ensures st.user.Some? ==> r == Seqs.Filter(st.memos, OwnedBy(st.user.value.id))
    ensures st.user.Some? ==> forall m :: m in r <==> m in st.memos && m.userId == st.user.value.id
    ensures st.user.Some? ==> forall m :: multiset(r)[m] == if m.userId == st.user.value.id then multiset(st.memos)[m] else 0
  {
    match st.user
    case None => []
    case Some(u) =>
      var r := Seqs.Filter(st.memos, OwnedBy(u.id));
      forall m ensures m in r <==> m in st.memos && m.userId == u.id {
        Seqs.FilterMembership(st.memos, OwnedBy(u.id), m);
      }
      r
  }

  /** Opening a memo from the history list shows it on the result screen. */
  function SelectMemo(st: State, m: Memo): (r: State)
    ensures r.current == Some(m) && r.screen == ResultScreen
    ensures r.(current := st.current, screen := st.screen) == st
  {
    st.(current := Some(m), screen := ResultScreen)
  }

  /** The history button in the header. */
  function OpenHistory(st: State): (r: State)
    ensures r.screen == HistoryScreen && r.(screen := st.screen) == st
  {
    st.(screen := HistoryScreen)
  }

  /** The logo in the header, or the history screen's back button. */
  function OpenLanding(st: State): (r: State)
    ensures r.screen == LandingScreen && r.(screen := st.screen) == st
  {
    st.(screen := LandingScreen)
  }

  /** Deleting by id removes every memo with that id and keeps the others in
      order. If the memo being viewed had that id, it is dropped and the
      landing screen is shown; otherwise screen and viewed memo stay. */
  function DeleteMemo(st: State, id: string): (r: State)
    ensures r.memos == Seqs.Filter(st.memos, OtherThan(id))
    ensures forall m :: multiset(r.memos)[m] == if m.id == id then 0 else multiset(st.memos)[m]
    ensures st.current.Some? && st.current.value.id == id ==> r.current.None? && r.screen == LandingScreen
    ensures !(st.current.Some? && st.current.value.id == id) ==> r.current == st.current && r.screen == st.screen
    ensures r.user == st.user && r.error == st.error && r.loading == st.loading && r.progress == st.progress
  {
    var kept := st.(memos := Seqs.Filter(st.memos, OtherThan(id)));
    if st.current.Some? && st.current.value.id == id then kept.(current := None, screen := LandingScreen)
    else kept
  }

  /** The Markdown download for the memo being viewed, if any. */
  function ExportCurrent(st: State, dateText: string): (r: Option<Markdown.Download>)
    ensures r.Some? <==> st.current.Some?
    ensures r.Some? ==> r.value == Markdown.Download(
      Markdown.FileName(st.current.value.id), Markdown.Document(st.current.value, dateText))
  {
    Markdown.Export(st.current, dateText)
  }

  // Properties relating the transitions.

  /** A successful submission adds exactly the new memo at the front of the
      signed-in user's history, ahead of that user's earlier memos. */
  lemma SucceedExtendsHistory(st: State, resp: GeminiResponse, env: Fresh)
    requires st.user.Some?
    ensures HistoryMemos(Succeed(st, st.user.value, resp, env))
      == [NewMemo(resp, st.user.value, env)] + HistoryMemos(st)
  {
    var u := st.user.value;
    var memo := NewMemo(resp, u, env);
    Seqs.FilterAppend([memo], st.memos, OwnedBy(u.id));
    assert [memo][1..] == [];
  }

  /** Deleting removes the id from the signed-in user's history and leaves the
      rest of it; another user's history is never listed. */
  lemma DeleteNarrowsHistory(st: State, id: string)
    ensures forall m :: m in HistoryMemos(DeleteMemo(st, id)) <==> m in HistoryMemos(st) && m.id != id
  {
    var r := DeleteMemo(st, id);
    if st.user.Some? {
      forall m ensures m in r.memos <==> m in st.memos && m.id != id {
        Seqs.FilterMembership(st.memos, OtherThan(id), m);
      }
    }
  }

  /** Every delivered sign-in carries a fresh id, so signing in again, with
      the same email or another, opens an empty history: the memos filed under
      earlier sign-ins stay in the collection, owned by ids the new user does
      not have. */
  lemma ReloginHidesEarlierMemos(st: State, k: nat, freshId: string)
    requires k < |st.pendingSignIns|
    requires forall m :: m in st.memos ==> m.userId != freshId
    ensures Deliver(st, k, freshId).memos == st.memos
    ensures HistoryMemos(Deliver(st, k, freshId)) == []
  {
  }

  /** What the user can do, and the completion of a request in flight or of
      a sign-in's delay. */
  datatype Event =
    | SignInSubmitted(form: Auth.AuthForm)
    | SignInDelivered(j: nat, freshId: string)
    | SignOutPressed
    | Submitted(input: Payload.Input)
    | Answered(k: nat, ai: Service, env: Fresh)
    | HistoryPressed
    | LandingPressed
    | MemoOpened(memo: Memo)
    | MemoDeleted(id: string)

  /** An event is possible when the screen showing its control is up: the
      form on the sign-in screen, its button only while the form is not
      waiting (a form mounted afresh is not waiting, even while an earlier
      form's sign-in is still pending); the header, with the logo, the history
      button and sign-out, on every other screen, the processing screen
      included; the submission controls on the landing screen, the transcript
      button only while no request is loading; and the list on the history
      screen, which only offers the signed-in user's memos. Any request in
      flight can complete, and any pending sign-in can run out its delay, at
      any time and on any screen. */
  predicate Enabled(st: State, e: Event)
    ensures Enabled(st, e) && st.screen == ProcessingScreen ==>
      e.SignOutPressed? || e.HistoryPressed? || e.LandingPressed? || e.Answered? || e.SignInDelivered?
  {
    match e
    case SignInSubmitted(form) => st.screen == AuthScreen && !form.isLoading
    case SignInDelivered(j, _) => j < |st.pendingSignIns|
    case SignOutPressed => st.screen != AuthScreen
    case Submitted(input) => st.screen == LandingScreen && (input.TranscriptInput? ==> !st.loading)
    case Answered(k, _, _) => k < |st.inFlight|
    case HistoryPressed => st.screen != AuthScreen
    case LandingPressed => st.screen != AuthScreen
    case MemoOpened(m) => st.screen == HistoryScreen && m in HistoryMemos(st)
    case MemoDeleted(_) => st.screen == HistoryScreen
  }

  /** The transition for an event. Only a delivered sign-in and a sign-out
      change who is signed in; only a completion and a delete change the
      collection; only a start and a completion change what is in flight; only
      submitting and delivering a sign-in change the pending sign-ins. */
  function Step(st: State, e: Event): (r: State)
    ensures r.user != st.user ==> e.SignInDelivered? || e.SignOutPressed?
    ensures r.memos != st.memos ==> e.Answered? || e.MemoDeleted?
    ensures r.inFlight != st.inFlight ==> e.Submitted? || e.Answered?
    ensures r.pendingSignIns != st.pendingSignIns ==> e.SignInSubmitted? || e.SignInDelivered?
  {
    match e
    case SignInSubmitted(form) => st.(pendingSignIns := st.pendingSignIns + [form])
    case SignInDelivered(j, freshId) => if j < |st.pendingSignIns| then Deliver(st, j, freshId) else st
    case SignOutPressed => SignOut(st)
    case Submitted(input) => Begin(st, input)
    case Answered(k, ai, env) => if k < |st.inFlight| then Complete(st, k, ai, env) else st
    case HistoryPressed => OpenHistory(st)
    case LandingPressed => OpenLanding(st)
    case MemoOpened(m) => SelectMemo(st, m)
    case MemoDeleted(id) => DeleteMemo(st, id)
  }

  /** What holds between any two events: the sign-in screen is shown only when
      nobody is signed in, the result screen always has a memo to show, the
      processing screen only while loading, loading only while some request
      is in flight, and the bar at its starting value exactly while loading.
      That the sign-in screen is shown whenever nobody is signed in does NOT
      hold (see `SignOutWhileProcessing`). */
  predicate Valid(st: State)
  {
    && (st.screen == AuthScreen ==> st.user.None?)
    && (st.screen == ResultScreen ==> st.current.Some?)
    && (st.screen == ProcessingScreen ==> st.loading)
    && (st.loading ==> |st.inFlight| > 0)
    && st.progress == (if st.loading then StartProgress else 0)
  }

  /** Every possible event keeps the state valid. */
  lemma StepValid(st: State, e: Event)
    requires Valid(st) && Enabled(st, e)
    ensures Valid(Step(st, e))
  {
  }

  /** Every event keeps the collection newest first, provided the clock gives
      a new memo a time no earlier than any memo already stored. */
  lemma StepNewestFirst(st: State, e: Event)
    requires History.NewestFirst(st.memos)
    requires e.Answered? ==> forall m :: m in st.memos ==> m.timestamp <= e.env.timestamp
    ensures History.NewestFirst(Step(st, e).memos)
  {
    match e
    case MemoDeleted(id) =>
      History.FilterKeepsNewestFirst(st.memos, OtherThan(id));
    case Answered(k, ai, env) =>
      var r := Step(st, e);
      if r.memos != st.memos {
        assert r.memos[1..] == st.memos;
        assert r.memos[0].timestamp == env.timestamp;
        forall i, j | 0 <= i < j < |r.memos|
          ensures r.memos[i].timestamp >= r.memos[j].timestamp
        {
          if i == 0 {
            assert r.memos[j] in st.memos;
          } else {
            assert r.memos[i] == st.memos[i - 1] && r.memos[j] == st.memos[j - 1];
          }
        }
      }
    case _ =>
  }

  /** The state after a run of events. */
  function Run(st: State, es: seq<Event>): State
    decreases |es|
  {
    if |es| == 0 then st else Run(Step(st, es[0]), es[1..])
  }

  /** Each event of the run is possible when it happens. */
  predicate Possible(st: State, es: seq<Event>)
    decreases |es|
  {
    |es| == 0 || (Enabled(st, es[0]) && Possible(Step(st, es[0]), es[1..]))
  }

  /** Any possible run from a valid state ends in a valid state. */
  lemma {:induction false} RunValid(st: State, es: seq<Event>)
    requires Valid(st) && Possible(st, es)
    ensures Valid(Run(st, es))
    decreases |es|
  {
    if |es| > 0 {
      StepValid(st, es[0]);
      RunValid(Step(st, es[0]), es[1..]);
    }
  }

  /** A completion that outlives a sign-out: the header stays usable while
      processing, so the user can sign out before the answer arrives; the
      answer then still lands on the result screen, with nobody signed in and
      the memo filed under the user who started it. The run is possible from
      the landing screen and keeps the state valid, so the result screen with
      nobody signed in is a reachable state. */
  lemma SignOutWhileProcessing(st: State, input: Payload.Input, ai: Service, env: Fresh)
    requires Valid(st) && st.user.Some? && st.screen == LandingScreen && !st.loading
    requires Outcome(Request(st.user.value, input), ai).Success?
    ensures var es := [Submitted(input), SignOutPressed, Answered(|st.inFlight|, ai, env)];
      var r := Run(st, es);
      && Possible(st, es) && Valid(r)
      && r.screen == ResultScreen && r.user.None?
      && |r.memos| > 0 && r.memos[0].userId == st.user.value.id
      && HistoryMemos(r) == []
  {
    var es := [Submitted(input), SignOutPressed, Answered(|st.inFlight|, ai, env)];
    var s1 := Step(st, es[0]);
    var s2 := Step(s1, es[1]);
    assert s1 == Begin(st, input) && s2 == SignOut(s1);
    assert s2.inFlight[|st.inFlight|] == Request(st.user.value, input);
    assert Enabled(s2, es[2]);
    RunThree(st, es[0], es[1], es[2]);
    RunValid(st, es);
  }

  /** Two requests in flight at once: the logo leaves the processing screen
      while the first request is pending, and the file and recorder controls
      on the landing screen do not look at the indicator, so a second
      submission starts before the first is answered. When the first answer
      arrives the indicator goes off although the second is still pending. */
  lemma TwoInFlight(st: State, transcript: string, dataUrl: string, blobType: string, ai: Service, env: Fresh)
    requires Valid(st) && st.user.Some? && st.screen == LandingScreen && !st.loading
    ensures var es := [Submitted(Payload.TranscriptInput(transcript)), LandingPressed,
                       Submitted(Payload.AudioInput(dataUrl, blobType))];
      var r := Run(st, es);
      && Possible(st, es) && Valid(r)
      && |r.inFlight| == |st.inFlight| + 2 && r.loading
      && Enabled(r, Answered(|st.inFlight|, ai, env))
      && var after := Step(r, Answered(|st.inFlight|, ai, env));
         !after.loading && |after.inFlight| == |st.inFlight| + 1
  {
    var es := [Submitted(Payload.TranscriptInput(transcript)), LandingPressed,
               Submitted(Payload.AudioInput(dataUrl, blobType))];
    var s1 := Step(st, es[0]);
    var s2 := Step(s1, es[1]);
    assert s1 == Begin(st, es[0].input) && s2 == OpenLanding(s1);
    RunThree(st, es[0], es[1], es[2]);
    RunValid(st, es);
  }

  /** A run of three events is the three steps in turn, possible when each is
      enabled in the state it meets. */
  lemma RunThree(st: State, e1: Event, e2: Event, e3: Event)
    ensures Run(st, [e1, e2, e3]) == Step(Step(Step(st, e1), e2), e3)
    ensures Possible(st, [e1, e2, e3]) <==>
      Enabled(st, e1) && Enabled(Step(st, e1), e2) && Enabled(Step(Step(st, e1), e2), e3)
  {
    var s1 := Step(st, e1);
    var s2 := Step(s1, e2);
    assert [e1, e2, e3][1..] == [e2, e3] && [e2, e3][1..] == [e3] && [e3][1..] == [];
    assert Run(s2, [e3]) == Run(Step(s2, e3), []);
    assert Run(s1, [e2, e3]) == Run(s2, [e3]);
    assert Possible(s2, [e3]) <==> Enabled(s2, e3);
    assert Possible(s1, [e2, e3]) <==> Enabled(s1, e2) && Possible(s2, [e3]);
  }
}

=== FILE: history.dfy ===
/** The history screen's list: the memos whose title or summary contains the
    search term, ignoring case, ordered newest first by a stable sort. */
module History {
  import opened Types
  import Seqs
  import Text

  /** The search test: the lower-cased title or the lower-cased summary
      includes the lower-cased term. */
  predicate Matches(m: Memo, term: string)
  {
    || Text.Includes(Text.Lower(m.title), Text.Lower(term))
    || Text.Includes(Text.Lower(m.summary), Text.Lower(term))
  }

  /** Timestamps never increase along the list. */
  predicate NewestFirst(s: seq<Memo>)
  {
    forall i, j :: 0 <= i < j < |s| ==> s[i].timestamp >= s[j].timestamp
  }

  /** Places `m` in a newest-first list ahead of every memo that is not newer,
      so that among equal timestamps the earlier-inserted memo comes first. */
  function Insert(m: Memo, s: seq<Memo>): (r: seq<Memo>)
    requires NewestFirst(s)
    ensures NewestFirst(r)
    ensures multiset(r) == multiset(s) + multiset{m}
  {
    if |s| == 0 then [m]
    else if m.timestamp >= s[0].timestamp then
      PrependNewestFirst(m, s);
      [m] + s
    else
      TailNewestFirst(s);
      var rest := Insert(m, s[1..]);
      assert s == [s[0]] + s[1..];
      NoneNewer(rest, s[1..], m, s[0].timestamp);
      PrependNewestFirst(s[0], rest);
      assert multiset([s[0]] + rest) == multiset{s[0]} + multiset(rest);
      [s[0]] + rest
  }

  /** The tail of a newest-first list is newest first and no newer than its
      head. */
  lemma TailNewestFirst(s: seq<Memo>)
    requires NewestFirst(s) && |s| > 0
    ensures NewestFirst(s[1..])
    ensures forall i | 0 <= i < |s[1..]| :: s[1..][i].timestamp <= s[0].timestamp
  {
    forall i | 0 <= i < |s[1..]|
      ensures s[1..][i].timestamp <= s[0].timestamp
    {
      assert s[1..][i] == s[i + 1];
    }
  }

  /** A memo no older than every memo of a newest-first list can go in front. */
  lemma PrependNewestFirst(h: Memo, s: seq<Memo>)
    requires NewestFirst(s)
    requires forall x | x in s :: x.timestamp <= h.timestamp
    ensures NewestFirst([h] + s)
  {
    forall i, j | 0 <= i < j < |[h] + s|
      ensures ([h] + s)[i].timestamp >= ([h] + s)[j].timestamp
    {
      if i > 0 {
        assert ([h] + s)[i] == s[i - 1];
      }
      assert ([h] + s)[j] == s[j - 1];
    }
  }

  /** A list holding the memos of `s` and `m`, none newer than `bound`, holds
      no memo newer than `bound`. */
  lemma NoneNewer(r: seq<Memo>, s: seq<Memo>, m: Memo, bound: int)
    requires multiset(r) == multiset(s) + multiset{m}
    requires m.timestamp <= bound
    requires forall i | 0 <= i < |s| :: s[i].timestamp <= bound
    ensures forall x | x in r :: x.timestamp <= bound
  {
    forall x | x in r
      ensures x.timestamp <= bound
    {
      assert x in multiset(r);
      if x != m {
        assert x in multiset(s);
        var i :| 0 <= i < |s| && s[i] == x;
      }
    }
  }

  /** `sort((a, b) => b.timestamp - a.timestamp)`: a stable sort, newest first. */
  function SortNewestFirst(s: seq<Memo>): (r: seq<Memo>)
    ensures NewestFirst(r)
    ensures multiset(r) == multiset(s)
  {
    if |s| == 0 then []
    else
      assert s == [s[0]] + s[1..];
      Insert(s[0], SortNewestFirst(s[1..]))
  }

  /** The memos listed for a search term. */
  function Search(memos: seq<Memo>, term: string): (r: seq<Memo>)
    ensures NewestFirst(r)
    ensures multiset(r) == multiset(Seqs.Filter(memos, (m: Memo) => Matches(m, term)))
    ensures forall m :: m in r <==> m in memos && Matches(m, term)
    ensures forall m :: multiset(r)[m] <= multiset(memos)[m]
  {
    var kept := Seqs.Filter(memos, (m: Memo) => Matches(m, term));
    var r := SortNewestFirst(kept);
    assert forall m :: m in r <==> m in kept by {
      forall m ensures m in r <==> m in kept {
        assert m in r <==> multiset(r)[m] > 0;
        assert m in kept <==> multiset(kept)[m] > 0;
      }
    }
    forall m ensures m in kept <==> m in memos && Matches(m, term) {
      Seqs.FilterMembership(memos, (m: Memo) => Matches(m, term), m);
    }
    r
  }

  /** A memo matches a term exactly when the lower-cased term occurs at some
      position of the lower-cased title or of the lower-cased summary. */
  lemma MatchesOccurs(m: Memo, term: string)
    ensures Matches(m, term) <==>
      || (exists i :: Text.OccursAt(Text.Lower(m.title), Text.Lower(term), i))
      || (exists i :: Text.OccursAt(Text.Lower(m.summary), Text.Lower(term), i))
  {
    Text.IncludesOccurs(Text.Lower(m.title), Text.Lower(term));
    Text.IncludesOccurs(Text.Lower(m.summary), Text.Lower(term));
  }

  /** The empty search term lists every memo. */
  lemma SearchEmptyTerm(memos: seq<Memo>)
    ensures multiset(Search(memos, "")) == multiset(memos)
  {
    assert Text.Lower("") == "";
    Seqs.FilterKeepsAll(memos, (m: Memo) => Matches(m, ""));
  }

  /** The memos with timestamp `t`, in list order. */
  function AtTime(s: seq<Memo>, t: int): seq<Memo>
  {
    if |s| == 0 then []
    else (if s[0].timestamp == t then [s[0]] else []) + AtTime(s[1..], t)
  }

  /** Inserting a memo into a newest-first list leaves the order of the memos
      with any one timestamp unchanged, the new memo ahead of its equals. */
  lemma {:induction false} InsertStable(m: Memo, s: seq<Memo>, t: int)
    requires NewestFirst(s)
    ensures AtTime(Insert(m, s), t) == AtTime([m] + s, t)
  {
    if |s| > 0 && m.timestamp < s[0].timestamp {
      assert NewestFirst(s[1..]);
      InsertStable(m, s[1..], t);
      assert Insert(m, s) == [s[0]] + Insert(m, s[1..]);
      assert s == [s[0]] + s[1..];
      AtTimeOvertake(m, s[0], s[1..], Insert(m, s[1..]), t);
    }
  }

  /** A memo placed behind one with a different timestamp: the memos with any
      one timestamp still come in the same order. */
  lemma AtTimeOvertake(m: Memo, head: Memo, tail: seq<Memo>, ins: seq<Memo>, t: int)
    requires m.timestamp != head.timestamp
    requires AtTime(ins, t) == AtTime([m] + tail, t)
    ensures AtTime([head] + ins, t) == AtTime([m] + ([head] + tail), t)
  {
    AtTimeCons(head, ins, t);
    AtTimeCons(m, tail, t);
    AtTimeCons(head, tail, t);
    AtTimeCons(m, [head] + tail, t);
    var ft := AtTime(tail, t);
    if m.timestamp == t {
      assert AtTime([head] + ins, t) == [m] + ft;
      assert AtTime([head] + tail, t) == ft;
    } else if head.timestamp == t {
      assert AtTime([head] + ins, t) == [head] + ft;
      assert AtTime([m] + ([head] + tail), t) == [head] + ft;
    } else {
      assert AtTime([head] + ins, t) == ft;
      assert AtTime([m] + ([head] + tail), t) == ft;
    }
  }

  /** The memos with timestamp `t` of a list with one more memo in front. */
  lemma AtTimeCons(x: Memo, s: seq<Memo>, t: int)
    ensures AtTime([x] + s, t) == (if x.timestamp == t then [x] else []) + AtTime(s, t)
  {
    assert ([x] + s)[1..] == s;
  }

  /** The sort is stable: the memos with any one timestamp keep their relative
      order. */
  lemma {:induction false} SortStable(s: seq<Memo>, t: int)
    ensures AtTime(SortNewestFirst(s), t) == AtTime(s, t)
  {
    if |s| > 0 {
      SortStable(s[1..], t);
      InsertStable(s[0], SortNewestFirst(s[1..]), t);
      AtTimeCons(s[0], SortNewestFirst(s[1..]), t);
      AtTimeCons(s[0], s[1..], t);
      assert s == [s[0]] + s[1..];
    }
  }

  /** A list already newest first is left exactly as it is. */
  lemma {:induction false} SortKeepsNewestFirst(s: seq<Memo>)
    requires NewestFirst(s)
    ensures SortNewestFirst(s) == s
  {
    if |s| > 0 {
      SortKeepsNewestFirst(s[1..]);
      assert SortNewestFirst(s[1..]) == s[1..];
      if |s| > 1 {
        assert s[0].timestamp >= s[1..][0].timestamp;
      }
      assert s == [s[0]] + s[1..];
    }
  }

  /** Filtering keeps a newest-first list newest first. */
  lemma {:induction false} FilterKeepsNewestFirst(s: seq<Memo>, p: Memo -> bool)
    requires NewestFirst(s)
    ensures NewestFirst(Seqs.Filter(s, p))
  {
    if |s| > 0 {
      FilterKeepsNewestFirst(s[1..], p);
      var rest := Seqs.Filter(s[1..], p);
      forall x | x in rest
        ensures x.timestamp <= s[0].timestamp
      {
        Seqs.FilterMembership(s[1..], p, x);
      }
    }
  }

  /** Searching a newest-first collection lists the matching memos in
      collection order. */
  lemma SearchOrderedCollection(memos: seq<Memo>, term: string)
    requires NewestFirst(memos)
    ensures Search(memos, term) == Seqs.Filter(memos, (m: Memo) => Matches(m, term))
  {
    var p := (m: Memo) => Matches(m, term);
    FilterKeepsNewestFirst(memos, p);
    SortKeepsNewestFirst(Seqs.Filter(memos, p));
  }
}

=== FILE: markdown.dfy ===
/** The Markdown summary offered for download from the result screen: a fixed
    layout of the memo's title, date, summary and three bulleted sections, and
    a file name built from the first eight characters of the memo id. */
module Markdown {
  import opened Wrappers
  import opened Types
  import Text

  const FilePrefix: string := "meeting-summary-"
  const FileExtension: string := ".md"
  /** How many characters of the memo id the file name keeps. */
  const IdPrefixLength: nat := 8
  const Footer: string := "Generated by Meeting Memo Pro"
  const SummaryHeader: string := "## Summary"
  const KeyPointsHeader: string := "## Key Points"
  const ActionItemsHeader: string := "## Action Items"
  const FollowUpsHeader: string := "## Follow Ups"
  /** The horizontal rule above the footer. */
  const Rule: string := "---"

  /** A key point or a follow-up as a list item. */
  function Bullet(p: string): string
  {
    "- " + p
  }

  /** An action item as a list item with the owner in bold. */
  function ActionLine(a: ActionItem): string
  {
    "- **" + a.owner + "**: " + a.task
  }

  /** Each element rendered as one line, in order. */
  function Render<T>(xs: seq<T>, render: T -> string): (r: seq<string>)
    ensures |r| == |xs|
    ensures forall i :: 0 <= i < |xs| ==> r[i] == render(xs[i])
  {
    seq(|xs|, i requires 0 <= i < |xs| => render(xs[i]))
  }

  /** The lines of a section joined with newlines. */
  function Block<T>(xs: seq<T>, render: T -> string): string
  {
    Text.Join(Render(xs, render), '\n')
  }

  /** The lines of the export template after trimming the newline before the
      title and the indentation after the footer; each section is one
      template line holding its items joined with newlines. */
  function TemplateLines(m: Memo, dateText: string): seq<string>
  {
    ["# " + m.title, "Date: " + dateText, "", SummaryHeader, m.summary,
     "", KeyPointsHeader, Block(m.keyPoints, Bullet),
     "", ActionItemsHeader, Block(m.actionItems, ActionLine),
     "", FollowUpsHeader, Block(m.followUps, Bullet),
     "", Rule, Footer]
  }

  /** The whole exported document: the template's lines joined with newlines.
      It opens with the title line and closes with the footer. */
  function Document(m: Memo, dateText: string): (r: string)
    ensures "# " + m.title + "\n" <= r
    ensures |r| >= |Footer| && r[|r| - |Footer|..] == Footer
  {
    var ls := TemplateLines(m, dateText);
    Text.JoinAppend(ls[..|ls| - 1], [Footer], '\n');
    assert ls == ls[..|ls| - 1] + [Footer];
    assert Text.Join(ls, '\n') == "# " + m.title + "\n" + Text.Join(ls[1..], '\n');
    Text.Join(ls, '\n')
  }

  /** The download name: the fixed prefix, at most the first eight characters
      of the id, and the `.md` extension. */
  function FileName(id: string): (r: string)
    ensures |r| == |FilePrefix| + (if |id| < IdPrefixLength then |id| else IdPrefixLength) + |FileExtension|
    ensures r[..|FilePrefix|] == FilePrefix
    ensures r[|r| - |FileExtension|..] == FileExtension
    ensures r[|FilePrefix|..|r| - |FileExtension|] <= id
  {
    var kept := if |id| < IdPrefixLength then id else id[..IdPrefixLength];
    var r := FilePrefix + kept + FileExtension;
    assert r[|FilePrefix|..|r| - |FileExtension|] == kept;
    r
  }

  /** Two memos get the same download name exactly when their ids agree on
      their first eight characters. */
  lemma FileNameCollision(a: string, b: string)
    ensures FileName(a) == FileName(b) <==>
      (if |a| < IdPrefixLength then a else a[..IdPrefixLength])
      == (if |b| < IdPrefixLength then b else b[..IdPrefixLength])
  {
    var ka := if |a| < IdPrefixLength then a else a[..IdPrefixLength];
    var kb := if |b| < IdPrefixLength then b else b[..IdPrefixLength];
    var ra, rb := FileName(a), FileName(b);
    assert ra == FilePrefix + ka + FileExtension;
    assert rb == FilePrefix + kb + FileExtension;
    if ra == rb {
      assert ka == ra[|FilePrefix|..|ra| - |FileExtension|];
      assert kb == rb[|FilePrefix|..|rb| - |FileExtension|];
    }
  }

  /** What the download link carries. */
  datatype Download = Download(fileName: string, content: string)

  /** Exporting the memo being shown; without one there is nothing to export. */
  function Export(current: Option<Memo>, dateText: string): (r: Option<Download>)
    ensures r.None? <==> current.None?
    ensures r.Some? ==> r.value.fileName == FileName(current.value.id)
    ensures r.Some? ==> r.value.content == Document(current.value, dateText)
  {
    match current
    case None => None
    case Some(m) => Some(Download(FileName(m.id), Document(m, dateText)))
  }

  // Reading a section back.

  /** A list item's text, when the line is a `- ` item. */
  function ReadBullet(line: string): Option<string>
  {
    if "- " <= line then Some(line[2..]) else None
  }

  /** An action item, when the line is `- **owner**: task` with an owner free
      of asterisks. */
  function ReadActionLine(line: string): Option<ActionItem>
  {
    if "- **" <= line then
      var rest := line[4..];
      var owner := Text.Split(rest, '*')[0];
      Text.FirstField(rest, '*');
      var after := rest[|owner|..];
      if "**: " <= after then Some(ActionItem(after[4..], owner)) else None
    else None
  }

  /** Every line read with `read`, or nothing if one line does not parse. */
  function ReadLines<T>(lines: seq<string>, read: string -> Option<T>): Option<seq<T>>
  {
    if |lines| == 0 then Some([])
    else match (read(lines[0]), ReadLines(lines[1..], read))
      case (Some(x), Some(xs)) => Some([x] + xs)
      case _ => None
  }

  /** Lines each of which reads back to the element it was rendered from. */
  lemma {:induction false} ReadLinesRender<T>(xs: seq<T>, render: T -> string, read: string -> Option<T>)
    requires forall i :: 0 <= i < |xs| ==> read(render(xs[i])) == Some(xs[i])
    ensures ReadLines(Render(xs, render), read) == Some(xs)
  {
    if |xs| > 0 {
      ReadLinesRender(xs[1..], render, read);
      assert Render(xs, render)[1..] == Render(xs[1..], render);
      assert xs == [xs[0]] + xs[1..];
    }
  }

  /** A list item reads back to its text. */
  lemma ReadBulletOf(p: string)
    ensures ReadBullet(Bullet(p)) == Some(p)
  {
    assert Bullet(p)[2..] == p;
  }

  /** An action item whose owner has no asterisk reads back to itself. */
  lemma ReadActionLineOf(a: ActionItem)
    requires '*' !in a.owner
    ensures ReadActionLine(ActionLine(a)) == Some(a)
  {
    var line := ActionLine(a);
    var rest := line[4..];
    assert rest == a.owner + ("**: " + a.task);
    Text.SplitSeparatorFree(a.owner, "**: " + a.task, '*');
    assert ("**: " + a.task)[0] == '*';
    assert Text.Split("**: " + a.task, '*')[0] == "";
    assert a.owner + "" == a.owner;
    assert rest[|a.owner|..] == "**: " + a.task;
    assert ("**: " + a.task)[4..] == a.task;
  }

  // Reading the whole document back.

  /** The lines a section contributes once the document is split at newlines:
      one line per item, or one empty line for a section without items. */
  function SectionLines<T>(xs: seq<T>, render: T -> string): (r: seq<string>)
    ensures |r| >= 1
    ensures Text.Join(r, '\n') == Block(xs, render)
  {
    if |xs| == 0 then [""] else Render(xs, render)
  }

  /** The document's lines once each section's template line is replaced by
      the lines of its items. */
  function DocumentLines(m: Memo, dateText: string): seq<string>
  {
    ["# " + m.title, "Date: " + dateText, "", SummaryHeader, m.summary, "", KeyPointsHeader]
    + (SectionLines(m.keyPoints, Bullet)
    + (["", ActionItemsHeader]
    + (SectionLines(m.actionItems, ActionLine)
    + (["", FollowUpsHeader]
    + (SectionLines(m.followUps, Bullet)
    + ["", Rule, Footer])))))
  }

  /** The document is the join of its lines. */
  lemma DocumentJoin(m: Memo, dateText: string)
    ensures Document(m, dateText) == Text.Join(DocumentLines(m, dateText), '\n')
  {
    var head := ["# " + m.title, "Date: " + dateText, "", SummaryHeader, m.summary, "", KeyPointsHeader];
    var kp, ai, fu := Block(m.keyPoints, Bullet), Block(m.actionItems, ActionLine), Block(m.followUps, Bullet);
    var skp, sai, sfu := SectionLines(m.keyPoints, Bullet), SectionLines(m.actionItems, ActionLine), SectionLines(m.followUps, Bullet);
    var tail := ["", Rule, Footer];
    var y3 := ["", FollowUpsHeader] + ([fu] + tail);
    var e3 := ["", FollowUpsHeader] + (sfu + tail);
    var y2 := ["", ActionItemsHeader] + ([ai] + y3);
    var e2 := ["", ActionItemsHeader] + (sai + e3);
    assert TemplateLines(m, dateText) == head + ([kp] + y2);
    Text.JoinInline(["", FollowUpsHeader], sfu, tail, '\n');
    Text.JoinInline(["", ActionItemsHeader], sai, y3, '\n');
    Text.JoinCongruence(sai, y3, e3, '\n');
    Text.JoinCongruence(["", ActionItemsHeader], sai + y3, sai + e3, '\n');
    Text.JoinInline(head, skp, y2, '\n');
    Text.JoinCongruence(skp, y2, e2, '\n');
    Text.JoinCongruence(head, skp + y2, skp + e2, '\n');
  }

  /** How many lines at the front are non-empty: a section's items run up to
      the first blank line. */
  function ItemCount(ls: seq<string>): (n: nat)
    ensures n <= |ls|
    ensures forall i :: 0 <= i < n ==> ls[i] != ""
    ensures n == |ls| || ls[n] == ""
  {
    if |ls| == 0 || ls[0] == "" then 0 else 1 + ItemCount(ls[1..])
  }

  /** A section read from the front of the lines: its items up to the first
      blank line, or the one empty line of a section without items, and the
      lines left after it. */
  function ReadSection<T>(ls: seq<string>, read: string -> Option<T>): Option<(seq<T>, seq<string>)>
  {
    var n := ItemCount(ls);
    if n == 0 then
      if |ls| == 0 then None else Some(([], ls[1..]))
    else match ReadLines(ls[..n], read)
      case None => None
      case Some(xs) => Some((xs, ls[n..]))
  }

  /** A section's lines followed by a blank line read back to the section's
      elements, leaving that blank line and what follows it. */
  lemma ReadSectionOf<T>(xs: seq<T>, render: T -> string, read: string -> Option<T>, rest: seq<string>)
    requires forall i :: 0 <= i < |xs| ==> render(xs[i]) != "" && read(render(xs[i])) == Some(xs[i])
    requires |rest| >= 1 && rest[0] == ""
    ensures ReadSection(SectionLines(xs, render) + rest, read) == Some((xs, rest))
  {
    var ls := SectionLines(xs, render) + rest;
    if |xs| == 0 {
      assert ls[1..] == rest;
    } else {
      var lines := Render(xs, render);
      assert ls[|xs|] == "";
      assert ItemCount(ls) == |xs|;
      assert ls[..|xs|] == lines && ls[|xs|..] == rest;
      ReadLinesRender(xs, render, read);
    }
  }

  /** A blank line, a header and a section's lines read back to the
      section's elements, leaving the lines that follow the section. */
  lemma ReadHeadedOf<T>(header: string, xs: seq<T>, render: T -> string, read: string -> Option<T>, rest: seq<string>)
    requires forall i :: 0 <= i < |xs| ==> render(xs[i]) != "" && read(render(xs[i])) == Some(xs[i])
    requires |rest| >= 1 && rest[0] == ""
    ensures ReadHeaded(["", header] + (SectionLines(xs, render) + rest), header, read) == Some((xs, rest))
  {
    var ls := ["", header] + (SectionLines(xs, render) + rest);
    assert ls[2..] == SectionLines(xs, render) + rest;
    ReadSectionOf(xs, render, read, rest);
  }

  /** What a document reads back to. */
  datatype Parsed = Parsed(title: string, date: string, summary: string,
                           keyPoints: seq<string>, actionItems: seq<ActionItem>, followUps: seq<string>)

  /** A section under its header, after the blank line that precedes it. */
  function ReadHeaded<T>(ls: seq<string>, header: string, read: string -> Option<T>): Option<(seq<T>, seq<string>)>
  {
    if |ls| >= 2 && ls[0] == "" && ls[1] == header then ReadSection(ls[2..], read) else None
  }

  /** The three sections read in turn, each after a blank line and its
      header but the first, whose header the caller has read, and then
      exactly the rule and the footer. */
  function ReadBody(ls: seq<string>): Option<(seq<string>, seq<ActionItem>, seq<string>)>
  {
    match ReadSection(ls, ReadBullet)
    case None => None
    case Some((keyPoints, r1)) =>
      match ReadHeaded(r1, ActionItemsHeader, ReadActionLine)
      case None => None
      case Some((actionItems, r2)) =>
        match ReadHeaded(r2, FollowUpsHeader, ReadBullet)
        case None => None
        case Some((followUps, r3)) =>
          if r3 == ["", Rule, Footer] then Some((keyPoints, actionItems, followUps)) else None
  }

  /** The document's lines read by position: the title and date lines, the
      summary under its header, the key points header, and then the body. */
  function ReadLinesOfDocument(ls: seq<string>): Option<Parsed>
  {
    if |ls| >= 7 && "# " <= ls[0] && "Date: " <= ls[1] && ls[2] == "" && ls[3] == SummaryHeader
       && ls[5] == "" && ls[6] == KeyPointsHeader then
      match ReadBody(ls[7..])
      case None => None
      case Some((keyPoints, actionItems, followUps)) =>
        Some(Parsed(ls[0][2..], ls[1][6..], ls[4], keyPoints, actionItems, followUps))
    else None
  }

  /** A downloaded document read back. */
  function ReadDocument(doc: string): Option<Parsed>
  {
    ReadLinesOfDocument(Text.Split(doc, '\n'))
  }

  /** No line holds a newline. */
  predicate OneLine(ls: seq<string>)
  {
    forall i :: 0 <= i < |ls| ==> '\n' !in ls[i]
  }

  lemma OneLineAppend(a: seq<string>, b: seq<string>)
    requires OneLine(a) && OneLine(b)
    ensures OneLine(a + b)
  {
    forall i | 0 <= i < |a + b| ensures '\n' !in (a + b)[i] {
      if i >= |a| {
        assert (a + b)[i] == b[i - |a|];
      }
    }
  }

  /** A section of one-line items contributes one-line lines. */
  lemma SectionOneLine<T>(xs: seq<T>, render: T -> string)
    requires forall i :: 0 <= i < |xs| ==> '\n' !in render(xs[i])
    ensures OneLine(SectionLines(xs, render))
  {
  }

  /** The memo's fields fit on one line each. */
  predicate OneLineMemo(m: Memo)
  {
    && '\n' !in m.title && '\n' !in m.summary
    && (forall i :: 0 <= i < |m.keyPoints| ==> '\n' !in m.keyPoints[i])
    && (forall i :: 0 <= i < |m.followUps| ==> '\n' !in m.followUps[i])
    && (forall i :: 0 <= i < |m.actionItems| ==> '\n' !in m.actionItems[i].owner && '\n' !in m.actionItems[i].task)
  }

  /** Splitting the document at newlines recovers its lines. */
  lemma DocumentSplit(m: Memo, dateText: string)
    requires OneLineMemo(m) && '\n' !in dateText
    ensures Text.Split(Document(m, dateText), '\n') == DocumentLines(m, dateText)
  {
    var head := ["# " + m.title, "Date: " + dateText, "", SummaryHeader, m.summary, "", KeyPointsHeader];
    var skp, sai, sfu := SectionLines(m.keyPoints, Bullet), SectionLines(m.actionItems, ActionLine), SectionLines(m.followUps, Bullet);
    var tail := ["", Rule, Footer];
    var e3 := ["", FollowUpsHeader] + (sfu + tail);
    var e2 := ["", ActionItemsHeader] + (sai + e3);
    SectionOneLine(m.keyPoints, Bullet);
    SectionOneLine(m.actionItems, ActionLine);
    SectionOneLine(m.followUps, Bullet);
    OneLineAppend(sfu, tail);
    OneLineAppend(["", FollowUpsHeader], sfu + tail);
    OneLineAppend(sai, e3);
    OneLineAppend(["", ActionItemsHeader], sai + e3);
    OneLineAppend(skp, e2);
    OneLineAppend(head, skp + e2);
    DocumentJoin(m, dateText);
    Text.SplitJoin(DocumentLines(m, dateText), '\n');
  }

  /** Reading the document's lines by position gives back the memo's fields,
      when its owners have no asterisk. */
  lemma ReadDocumentLines(m: Memo, dateText: string)
    requires forall i :: 0 <= i < |m.actionItems| ==> '*' !in m.actionItems[i].owner
    ensures ReadLinesOfDocument(DocumentLines(m, dateText))
      == Some(Parsed(m.title, dateText, m.summary, m.keyPoints, m.actionItems, m.followUps))
  {
    var head := ["# " + m.title, "Date: " + dateText, "", SummaryHeader, m.summary, "", KeyPointsHeader];
    var skp, sai, sfu := SectionLines(m.keyPoints, Bullet), SectionLines(m.actionItems, ActionLine), SectionLines(m.followUps, Bullet);
    var tail := ["", Rule, Footer];
    var e3 := ["", FollowUpsHeader] + (sfu + tail);
    var e2 := ["", ActionItemsHeader] + (sai + e3);
    var ls := head + (skp + e2);
    assert ls == DocumentLines(m, dateText);
    assert ReadSection(ls[7..], ReadBullet) == Some((m.keyPoints, e2)) by {
      assert ls[7..] == skp + e2;
      BulletsReadBack(m.keyPoints);
      ReadSectionOf(m.keyPoints, Bullet, ReadBullet, e2);
    }
    assert ReadHeaded(e2, ActionItemsHeader, ReadActionLine) == Some((m.actionItems, e3)) by {
      forall i | 0 <= i < |m.actionItems|
        ensures ActionLine(m.actionItems[i]) != ""
        ensures ReadActionLine(ActionLine(m.actionItems[i])) == Some(m.actionItems[i])
      {
        ReadActionLineOf(m.actionItems[i]);
      }
      ReadHeadedOf(ActionItemsHeader, m.actionItems, ActionLine, ReadActionLine, e3);
    }
    assert ReadHeaded(e3, FollowUpsHeader, ReadBullet) == Some((m.followUps, tail)) by {
      BulletsReadBack(m.followUps);
      ReadHeadedOf(FollowUpsHeader, m.followUps, Bullet, ReadBullet, tail);
    }
    assert ls[..7] == head;
    ReadBodyOf(ls[7..], m.keyPoints, e2, m.actionItems, e3, m.followUps);
    ReadFieldsOf(ls, m.title, dateText, m.summary, (m.keyPoints, m.actionItems, m.followUps));
  }

  /** The body reader on sections that read back in turn up to the rule and
      footer. */
  lemma ReadBodyOf(ls: seq<string>, keyPoints: seq<string>, r1: seq<string>,
                   actionItems: seq<ActionItem>, r2: seq<string>, followUps: seq<string>)
    requires ReadSection(ls, ReadBullet) == Some((keyPoints, r1))
    requires ReadHeaded(r1, ActionItemsHeader, ReadActionLine) == Some((actionItems, r2))
    requires ReadHeaded(r2, FollowUpsHeader, ReadBullet) == Some((followUps, ["", Rule, Footer]))
    ensures ReadBody(ls) == Some((keyPoints, actionItems, followUps))
  {
  }

  /** The positional reader on lines whose head holds the title, date and
      summary and whose body reads back. */
  lemma ReadFieldsOf(ls: seq<string>, title: string, date: string, summary: string,
                     body: (seq<string>, seq<ActionItem>, seq<string>))
    requires |ls| >= 7 && ls[..7] == ["# " + title, "Date: " + date, "", SummaryHeader, summary, "", KeyPointsHeader]
    requires ReadBody(ls[7..]) == Some(body)
    ensures ReadLinesOfDocument(ls) == Some(Parsed(title, date, summary, body.0, body.1, body.2))
  {
    var head := ls[..7];
    assert ls[0] == head[0] && ls[1] == head[1] && ls[2] == head[2] && ls[3] == head[3];
    assert ls[4] == head[4] && ls[5] == head[5] && ls[6] == head[6];
    PrefixOf("# ", title);
    PrefixOf("Date: ", date);
  }

  /** A string starts with its prefix, and dropping the prefix leaves the rest. */
  lemma PrefixOf(p: string, x: string)
    ensures p <= p + x && (p + x)[|p|..] == x
  {
  }

  /** Every list item is a non-empty line that reads back to its text. */
  lemma BulletsReadBack(ps: seq<string>)
    ensures forall i :: 0 <= i < |ps| ==> Bullet(ps[i]) != "" && ReadBullet(Bullet(ps[i])) == Some(ps[i])
  {
    forall i | 0 <= i < |ps|
      ensures Bullet(ps[i]) != "" && ReadBullet(Bullet(ps[i])) == Some(ps[i])
    {
      ReadBulletOf(ps[i]);
    }
  }

  /** A memo whose title, summary and items fit on one line each, whose
      owners have no asterisk, exported with a one-line date: the download
      reads back to exactly that title, date and summary and to the memo's
      key points, action items and follow-ups, each exactly once and in
      order. */
  lemma ExportRoundTrip(m: Memo, dateText: string)
    requires OneLineMemo(m) && '\n' !in dateText
    requires forall i :: 0 <= i < |m.actionItems| ==> '*' !in m.actionItems[i].owner
    ensures Export(Some(m), dateText).Some?
    ensures ReadDocument(Export(Some(m), dateText).value.content)
      == Some(Parsed(m.title, dateText, m.summary, m.keyPoints, m.actionItems, m.followUps))
  {
    DocumentSplit(m, dateText);
    ReadDocumentLines(m, dateText);
  }
}

=== FILE: numerals.dfy ===
/** Decimal rendering of non-negative integers as JavaScript's `String(n)` and
    `padStart` produce it, and the reading of a digit string back to its value. */
module Numerals {

  predicate IsDigit(c: char)
  {
    '0' <= c <= '9'
  }

  predicate AllDigits(s: string)
  {
    forall i :: 0 <= i < |s| ==> IsDigit(s[i])
  }

  function DigitChar(d: nat): (c: char)
    requires d < 10
    ensures IsDigit(c)
  {
    ('0' as int + d) as char
  }

  function DigitValue(c: char): nat
    requires IsDigit(c)
  {
    c as int - '0' as int
  }

  /** The value of a digit string, most significant digit first; the empty
      string reads as 0. */
  function Value(s: string): nat
    requires AllDigits(s)
  {
    if |s| == 0 then 0
    else Value(s[..|s| - 1]) * 10 + DigitValue(s[|s| - 1])
  }

  /** `String(n)` for a non-negative integer: at least one digit, and no
      leading zero unless the number is 0 itself. */
  function Decimal(n: nat): (r: string)
    ensures 1 <= |r|
    ensures AllDigits(r)
    ensures r[0] == '0' <==> n == 0
    ensures n < 10 <==> |r| == 1
  {
    if n < 10 then [DigitChar(n)]
    else Decimal(n / 10) + [DigitChar(n % 10)]
  }

  /** Reading a rendered number gives the number back. */
  lemma {:induction false} ValueDecimal(n: nat)
    ensures Value(Decimal(n)) == n
  {
    if n >= 10 {
      ValueDecimal(n / 10);
      var r := Decimal(n);
      assert r[..|r| - 1] == Decimal(n / 10);
    }
  }

  /** `s.padStart(width, '0')`: zeros in front until the string is `width` long;
      a string already that long is unchanged. */
  function PadZeros(s: string, width: nat): (r: string)
    ensures |r| == if |s| >= width then |s| else width
    ensures r[|r| - |s|..] == s
    ensures forall i :: 0 <= i < |r| - |s| ==> r[i] == '0'
  {
    if |s| >= width then s else seq(width - |s|, _ => '0') + s
  }

  /** Leading zeros do not change the value of a digit string. */
  lemma {:induction false} ValueLeadingZeros(z: string, s: string)
    requires forall i :: 0 <= i < |z| ==> z[i] == '0'
    requires AllDigits(s)
    ensures AllDigits(z + s)
    ensures Value(z + s) == Value(s)
    decreases |s|
  {
    var t := z + s;
    assert AllDigits(t) by {
      forall i | 0 <= i < |t|
        ensures IsDigit(t[i])
      {
        if i < |z| { assert t[i] == z[i]; } else { assert t[i] == s[i - |z|]; }
      }
    }
    if |s| == 0 {
      assert t == z;
      ValueOfZeros(z);
    } else {
      assert t[..|t| - 1] == z + s[..|s| - 1];
      ValueLeadingZeros(z, s[..|s| - 1]);
    }
  }

  /** A string of zeros reads as 0. */
  lemma {:induction false} ValueOfZeros(z: string)
    requires forall i :: 0 <= i < |z| ==> z[i] == '0'
    ensures AllDigits(z)
    ensures Value(z) == 0
  {
    if |z| > 0 {
      ValueOfZeros(z[..|z| - 1]);
    }
  }

  /** Zero-padding keeps the value of a digit string. */
  lemma PadZerosValue(s: string, width: nat)
    requires AllDigits(s)
    ensures AllDigits(PadZeros(s, width))
    ensures Value(PadZeros(s, width)) == Value(s)
  {
    var r := PadZeros(s, width);
    var z := r[..|r| - |s|];
    assert r == z + s;
    ValueLeadingZeros(z, s);
  }
}

=== FILE: payload.dfy ===
/** Turning what the user submitted into the request sent to the summarisation
    service: the base64 payload cut out of a data URL, the MIME type with its
    two fallbacks, or the pasted transcript. */
module Payload {
  import opened Wrappers
  import Text

  /** The rejection message when no payload follows the data-URL header. */
  const ExtractionError: string := "Failed to extract base64 from file."
  /** The MIME type assumed when the blob reports none. */
  const DefaultMime: string := "audio/webm"
  /** The MIME type substituted for any generic binary type. */
  const FallbackMime: string := "audio/mpeg"
  /** The marker of a generic binary type. */
  const OctetStream: string := "octet-stream"

  /** What a processing request is started with: an audio blob, given as the
      data URL the file reader produced and the blob's own type; an audio blob
      the file reader could not read; or the text of a pasted transcript. */
  datatype Input =
    | AudioInput(dataUrl: string, blobType: string)
    | UnreadableAudio
    | TranscriptInput(text: string)

  /** The arguments handed to the summarisation service. */
  datatype AiRequest = AiRequest(base64: string, mimeType: string, transcript: Option<string>)

  /** `k` is the position of the first comma of `s`. */
  ghost predicate FirstCommaAt(s: string, k: int)
  {
    0 <= k < |s| && s[k] == ',' && ',' !in s[..k]
  }

  /** The payload of a data URL: the second comma-separated field, which must
      be present and non-empty. */
  function ExtractBase64(dataUrl: string): (r: Result<string, string>)
    ensures r.Success? ==> r.value != "" && ',' !in r.value
    ensures r.Failure? ==> r.error == ExtractionError
  {
    var fields := Text.Split(dataUrl, ',');
    if |fields| > 1 && fields[1] != "" then Success(fields[1]) else Failure(ExtractionError)
  }

  /** A header without commas, a comma, a non-empty comma-free payload and then
      nothing or further comma-separated fields: the payload is extracted. */
  lemma ExtractBase64Of(header: string, payload: string, rest: string)
    requires ',' !in header && ',' !in payload && payload != ""
    requires rest == "" || rest[0] == ','
    ensures ExtractBase64(header + "," + payload + rest) == Success(payload)
  {
    Text.SecondFieldOf(header, payload, rest, ',');
  }

  /** Conversely, every extracted payload sits right after the first comma and
      runs up to the next comma or the end. */
  lemma ExtractBase64Position(dataUrl: string)
    requires ExtractBase64(dataUrl).Success?
    ensures var b := ExtractBase64(dataUrl).value;
      exists k :: FirstCommaAt(dataUrl, k)
        && k + 1 + |b| <= |dataUrl|
        && dataUrl[k + 1..k + 1 + |b|] == b
        && (k + 1 + |b| == |dataUrl| || dataUrl[k + 1 + |b|] == ',')
  {
    var fields := Text.Split(dataUrl, ',');
    Text.SecondField(dataUrl, ',');
    var k := |fields[0]|;
    assert dataUrl[..k] == fields[0];
    assert FirstCommaAt(dataUrl, k);
  }

  /** Extraction fails exactly when the data URL has no comma or nothing
      between its first comma and the next comma or the end. */
  lemma ExtractBase64Fails(dataUrl: string)
    ensures ExtractBase64(dataUrl).Failure? <==>
      (',' !in dataUrl
       || exists k :: FirstCommaAt(dataUrl, k) && (k + 1 == |dataUrl| || dataUrl[k + 1] == ','))
  {
    var fields := Text.Split(dataUrl, ',');
    if ',' !in dataUrl {
      Text.SplitNoSeparator(dataUrl, ',');
    } else {
      var f0 := fields[0];
      Text.FirstField(dataUrl, ',');
      if |f0| == |dataUrl| {
        assert false;
      }
      var k := |f0|;
      var t := dataUrl[k + 1..];
      assert dataUrl == f0 + [','] + t;
      Text.SplitAfterField(f0, t, ',');
      assert fields[1] == Text.Split(t, ',')[0];
      assert FirstCommaAt(dataUrl, k);
      Text.FirstField(t, ',');
      if t != "" && t[0] == ',' {
        assert Text.Split(t, ',')[0] == "";
      }
    }
  }

  /** The MIME type sent with an audio payload: the blob's type, `audio/webm`
      when the blob has none, and `audio/mpeg` instead of any type mentioning
      `octet-stream`. */
  function ChooseMimeType(blobType: string): (r: string)
    ensures r != ""
    ensures !Text.Includes(r, OctetStream)
    ensures blobType == "" ==> r == DefaultMime
    ensures Text.Includes(blobType, OctetStream) ==> r == FallbackMime
    ensures blobType != "" && !Text.Includes(blobType, OctetStream) ==> r == blobType
  {
    Text.IncludesNeedsRoom(DefaultMime, OctetStream);
    Text.IncludesNeedsRoom(FallbackMime, OctetStream);
    var m := if blobType == "" then DefaultMime else blobType;
    if Text.Includes(m, OctetStream) then FallbackMime else m
  }

  /** The request for one submission: audio is sent as its extracted payload
      with its chosen MIME type and no transcript; a transcript is sent with an
      empty payload and an empty MIME type. Extraction failure stops here with
      its message; a read failure stops here with no message at all, since the
      reader's error event carries none. */
  function BuildRequest(input: Input): (r: Result<AiRequest, string>)
    ensures input.TranscriptInput? ==> r == Success(AiRequest("", "", Some(input.text)))
    ensures input.AudioInput? && r.Success? ==>
      && r.value.transcript.None?
      && ExtractBase64(input.dataUrl) == Success(r.value.base64)
      && r.value.mimeType == ChooseMimeType(input.blobType)
    ensures input.AudioInput? ==> (r.Failure? <==> ExtractBase64(input.dataUrl).Failure?)
    ensures input.UnreadableAudio? ==> r == Failure("")
    ensures input.AudioInput? && r.Failure? ==> r.error == ExtractionError
  {
    match input
    case TranscriptInput(text) => Success(AiRequest("", "", Some(text)))
    case UnreadableAudio => Failure("")
    case AudioInput(dataUrl, blobType) =>
      match ExtractBase64(dataUrl)
      case Failure(e) => Failure(e)
      case Success(b) => Success(AiRequest(b, ChooseMimeType(blobType), None))
  }

  /** A data URL whose payload is empty, as the file reader renders an empty
      recording, is rejected before any request is built. */
  lemma EmptyRecordingRejected(header: string)
    requires ',' !in header
    ensures BuildRequest(AudioInput(header + ",", DefaultMime)) == Failure(ExtractionError)
  {
    var s := header + ",";
    ExtractBase64Fails(s);
    assert s[..|header|] == header;
    assert FirstCommaAt(s, |header|);
  }
}

=== FILE: recorder.dfy ===
/** The live recorder on the landing screen: the elapsed-time label and the
    start/stop guard around the platform recorder, with the recorded chunks. */
module Recorder {
  import opened Wrappers
  import Text
  import Numerals

  /** The type given to the blob assembled from the recorded chunks. */
  const RecordingType: string := "audio/webm"

  /** A recorded piece of audio, known here only by its size in bytes. */
  datatype Chunk = Chunk(size: nat)

  /** The blob handed on when a recording stops. */
  datatype Blob = Blob(chunks: seq<Chunk>, mimeType: string)

  /** The recorder widget: whether a platform recorder was obtained, whether it
      is recording, the seconds counted so far, the chunks collected, and
      whether a stop was requested whose stop event has not yet arrived. */
  datatype Recorder = Recorder(hasRecorder: bool, isRecording: bool, time: nat, chunks: seq<Chunk>,
                               stopRequested: bool)

  // The elapsed-time label.

  /** A number below 100 renders with at most two digits. */
  lemma DecimalBelow100(n: nat)
    requires n < 100
    ensures |Numerals.Decimal(n)| <= 2
  {
    if n >= 10 {
      assert Numerals.Decimal(n) == Numerals.Decimal(n / 10) + [Numerals.DigitChar(n % 10)];
    }
  }

  /** `n.toString().padStart(2, '0')` for `n` below 100: exactly two digits
      that read back as `n`. */
  function TwoDigits(n: nat): (r: string)
    requires n < 100
    ensures |r| == 2
    ensures Numerals.AllDigits(r)
    ensures Numerals.Value(r) == n
  {
    var d := Numerals.Decimal(n);
    DecimalBelow100(n);
    Numerals.PadZerosValue(d, 2);
    Numerals.ValueDecimal(n);
    Numerals.PadZeros(d, 2)
  }

  /** The label `m:ss`: whole minutes, a colon, and the remaining seconds as
      exactly two digits. */
  function FormatTime(seconds: nat): (r: string)
    ensures |r| >= 4 && r[|r| - 3] == ':'
    ensures r[..|r| - 3] == Numerals.Decimal(seconds / 60)
    ensures Numerals.AllDigits(r[|r| - 2..])
    ensures Numerals.Value(r[|r| - 2..]) == seconds % 60 < 60
  {
    var minutes := Numerals.Decimal(seconds / 60);
    var rem := seconds % 60;
    assert rem < 60;
    var secs := TwoDigits(rem);
    LabelParts(minutes, secs);
    var r := minutes + ":" + secs;
    assert r[|r| - 2..] == secs;
    r
  }

  /** Where the parts of a label sit: the minutes before the colon three
      from the end, the two seconds digits after it. */
  lemma LabelParts(minutes: string, secs: string)
    requires |minutes| >= 1 && |secs| == 2
    ensures var r := minutes + ":" + secs;
      && |r| >= 4 && r[|r| - 3] == ':'
      && r[..|r| - 3] == minutes && r[|r| - 2..] == secs
  {
    var r := minutes + ":" + secs;
    assert r[..|r| - 3] == minutes;
    assert r[|r| - 2..] == secs;
  }

  /** Reads a label back: exactly one colon, a non-empty run of digits before
      it and exactly two digits after it. */
  function ParseTime(shown: string): Option<nat>
  {
    ParseFields(Text.Split(shown, ':'))
  }

  /** The reading of a label's colon-separated fields. */
  function ParseFields(fields: seq<string>): Option<nat>
  {
    if |fields| == 2 && fields[0] != "" && Numerals.AllDigits(fields[0])
      && |fields[1]| == 2 && Numerals.AllDigits(fields[1])
    then Some(Numerals.Value(fields[0]) * 60 + Numerals.Value(fields[1]))
    else None
  }

  /** A digit string has no colon. */
  lemma DigitsHaveNoColon(s: string)
    requires Numerals.AllDigits(s)
    ensures ':' !in s
  {
    forall i | 0 <= i < |s| ensures s[i] != ':' {
      assert Numerals.IsDigit(s[i]);
    }
  }

  /** A digit run, a colon and two digits split into exactly those two
      fields. */
  lemma SplitTimeOf(minutes: string, secs: string)
    requires Numerals.AllDigits(minutes) && Numerals.AllDigits(secs)
    ensures Text.Split(minutes + ":" + secs, ':') == [minutes, secs]
  {
    DigitsHaveNoColon(minutes);
    DigitsHaveNoColon(secs);
    Text.SplitAfterField(minutes, secs, ':');
    Text.SplitNoSeparator(secs, ':');
  }

  /** A digit run reading as `a`, a colon and two digits reading as `b` read
      back to `a` times sixty plus `b`. */
  lemma ParseTimeOf(minutes: string, secs: string, a: nat, b: nat)
    requires minutes != "" && Numerals.AllDigits(minutes) && Numerals.Value(minutes) == a
    requires |secs| == 2 && Numerals.AllDigits(secs) && Numerals.Value(secs) == b
    ensures ParseTime(minutes + ":" + secs) == Some(a * 60 + b)
  {
    SplitTimeOf(minutes, secs);
    ParseFieldsOf(minutes, secs, a, b);
  }

  /** A digit run and two digits as fields read back to the minutes times
      sixty plus the seconds. */
  lemma ParseFieldsOf(minutes: string, secs: string, a: nat, b: nat)
    requires minutes != "" && Numerals.AllDigits(minutes) && Numerals.Value(minutes) == a
    requires |secs| == 2 && Numerals.AllDigits(secs) && Numerals.Value(secs) == b
    ensures ParseFields([minutes, secs]) == Some(a * 60 + b)
  {
    var fields := [minutes, secs];
    assert fields[0] == minutes && fields[1] == secs;
  }

  /** Minutes rendered in decimal, a colon and seconds below 60 padded to two
      digits read back to the minutes times sixty plus the seconds. */
  lemma ParseTimeParts(q: nat, m: nat)
    requires m < 60
    ensures ParseTime(Numerals.Decimal(q) + ":" + TwoDigits(m)) == Some(q * 60 + m)
  {
    Numerals.ValueDecimal(q);
    ParseTimeOf(Numerals.Decimal(q), TwoDigits(m), q, m);
  }

  /** The label reads back to the number of seconds it was made from: the
      minutes times sixty plus the seconds field is the counter. */
  lemma FormatTimeRoundTrip(seconds: nat)
    ensures ParseTime(FormatTime(seconds)) == Some(seconds)
  {
    ParseTimeParts(seconds / 60, seconds % 60);
  }

  /** Different counters never show the same label. */
  lemma FormatTimeInjective(a: nat, b: nat)
    requires FormatTime(a) == FormatTime(b)
    ensures a == b
  {
    FormatTimeRoundTrip(a);
    FormatTimeRoundTrip(b);
  }

  // The start/stop guard.

  /** Starting: when the microphone is granted, a fresh recorder starts with an
      empty chunk list and the counter at zero; when it is refused, nothing
      changes (the user is only alerted). The chunk list is shared, so a stop
      event still owed by an earlier recorder stays owed and will hand on the
      new list. */
  function Start(r: Recorder, granted: bool): (r': Recorder)
    ensures granted ==> r'.hasRecorder && r'.isRecording && r'.time == 0 && r'.chunks == []
    ensures r'.stopRequested == r.stopRequested
    ensures !granted ==> r' == r
  {
    if granted then Recorder(true, true, 0, [], r.stopRequested) else r
  }

  /** A chunk delivered by the recorder is kept only when it holds data. */
  function DataAvailable(r: Recorder, c: Chunk): (r': Recorder)
    ensures c.size > 0 ==> r'.chunks == r.chunks + [c]
    ensures c.size == 0 ==> r' == r
    ensures r'.hasRecorder == r.hasRecorder && r'.isRecording == r.isRecording && r'.time == r.time
    ensures r'.stopRequested == r.stopRequested
  {
    if c.size > 0 then r.(chunks := r.chunks + [c]) else r
  }

  /** One second of the timer, which runs from a successful start until the
      next stop. */
  function Tick(r: Recorder): (r': Recorder)
    ensures r.isRecording ==> r'.time == r.time + 1
    ensures !r.isRecording ==> r' == r
    ensures r'.hasRecorder == r.hasRecorder && r'.isRecording == r.isRecording && r'.chunks == r.chunks
    ensures r'.stopRequested == r.stopRequested
  {
    if r.isRecording then r.(time := r.time + 1) else r
  }

  /** Pressing stop: only a recorder that exists and is recording is asked to
      stop; recording ends at once (and with it the timer), but nothing is
      handed on yet. Otherwise nothing happens. */
  function Stop(r: Recorder): (r': Recorder)
    ensures !(r.hasRecorder && r.isRecording) ==> r' == r
    ensures r.hasRecorder && r.isRecording ==>
      && !r'.isRecording && r'.stopRequested
      && r'.hasRecorder && r'.time == r.time && r'.chunks == r.chunks
  {
    if r.hasRecorder && r.isRecording then r.(isRecording := false, stopRequested := true) else r
  }

  /** The recorder's stop event, after a requested stop: one blob of the chunks
      collected by then, typed `audio/webm`, is handed on. Without a requested
      stop no blob is produced. */
  function Stopped(r: Recorder): (result: (Recorder, Option<Blob>))
    ensures r.stopRequested ==> result == (r.(stopRequested := false), Some(Blob(r.chunks, RecordingType)))
    ensures !r.stopRequested ==> result == (r, None)
  {
    if r.stopRequested then (r.(stopRequested := false), Some(Blob(r.chunks, RecordingType)))
    else (r, None)
  }

  /** Without a timeslice the recorder delivers its data once, after the stop
      request and before the stop event: the blob handed on holds that chunk,
      after whatever was collected before. */
  lemma FinalChunkInBlob(r: Recorder, c: Chunk)
    requires r.hasRecorder && r.isRecording && c.size > 0
    ensures Stopped(DataAvailable(Stop(r), c)).1 == Some(Blob(r.chunks + [c], RecordingType))
  {
  }

  /** The counter after `n` seconds of the timer. */
  function Ticks(r: Recorder, n: nat): Recorder
  {
    if n == 0 then r else Tick(Ticks(r, n - 1))
  }

  /** After a successful start and `n` timer ticks the counter shows `n`, and
      the recorder is still recording. */
  lemma {:induction false} ElapsedAfterStart(r: Recorder, n: nat)
    ensures Ticks(Start(r, true), n).time == n
    ensures Ticks(Start(r, true), n).isRecording
  {
    if n > 0 {
      ElapsedAfterStart(r, n - 1);
    }
  }

  /** What can happen to the widget. */
  datatype Event = StartPressed(granted: bool) | ChunkDelivered(chunk: Chunk) | TimerFired | StopPressed | RecorderStopped

  function Step(r: Recorder, e: Event): Recorder
  {
    match e
    case StartPressed(granted) => Start(r, granted)
    case ChunkDelivered(c) => DataAvailable(r, c)
    case TimerFired => Tick(r)
    case StopPressed => Stop(r)
    case RecorderStopped => Stopped(r).0
  }

  function Run(r: Recorder, es: seq<Event>): Recorder
    decreases |es|
  {
    if |es| == 0 then r else Run(Step(r, es[0]), es[1..])
  }

  /** No empty chunk is ever kept, and only an obtained recorder records. */
  predicate Valid(r: Recorder)
  {
    && (forall i :: 0 <= i < |r.chunks| ==> r.chunks[i].size > 0)
    && (r.isRecording ==> r.hasRecorder)
  }

  /** Every event keeps the widget valid. */
  lemma StepValid(r: Recorder, e: Event)
    requires Valid(r)
    ensures Valid(Step(r, e))
  {
  }

  /** Any sequence of events from the initial widget keeps it valid: the blob
      handed on never contains an empty chunk. */
  lemma {:induction false} RunValid(r: Recorder, es: seq<Event>)
    requires Valid(r)
    ensures Valid(Run(r, es))
    ensures var blob := Stopped(Run(r, es)).1;
      blob.Some? ==> forall i :: 0 <= i < |blob.value.chunks| ==> blob.value.chunks[i].size > 0
    decreases |es|
  {
    if |es| > 0 {
      StepValid(r, es[0]);
      RunValid(Step(r, es[0]), es[1..]);
    }
  }
}

=== FILE: seqs.dfy ===
/** Sequence filtering with the meaning of `Array.prototype.filter`: the kept
    elements, in their original order. */
module Seqs {

  /** The elements of `s` that satisfy `p`, in order. Each kept element occurs
      exactly as often as in `s`; a rejected element does not occur at all. */
  function Filter<T(!new)>(s: seq<T>, p: T -> bool): (r: seq<T>)
    ensures |r| <= |s|
    ensures forall x :: multiset(r)[x] == if p(x) then multiset(s)[x] else 0
    ensures forall i :: 0 <= i < |r| ==> p(r[i])
  {
    if |s| == 0 then []
    else
      var rest := Filter(s[1..], p);
      assert s == [s[0]] + s[1..];
      if p(s[0]) then [s[0]] + rest else rest
  }

  /** An element is in the filtered sequence exactly when it is in the input and
      satisfies the predicate. */
  lemma FilterMembership<T(!new)>(s: seq<T>, p: T -> bool, x: T)
    ensures x in Filter(s, p) <==> x in s && p(x)
  {
    var r := Filter(s, p);
    assert x in r <==> multiset(r)[x] > 0;
    assert x in s <==> multiset(s)[x] > 0;
  }

  /** Filtering distributes over concatenation, so it keeps the relative order
      of the elements it retains. */
  lemma {:induction false} FilterAppend<T(!new)>(a: seq<T>, b: seq<T>, p: T -> bool)
    ensures Filter(a + b, p) == Filter(a, p) + Filter(b, p)
  {
    if |a| == 0 {
      assert a + b == b;
    } else {
      assert (a + b)[1..] == a[1..] + b;
      FilterAppend(a[1..], b, p);
    }
  }

  /** Filtering with a predicate every element satisfies changes nothing. */
  lemma {:induction false} FilterKeepsAll<T(!new)>(s: seq<T>, p: T -> bool)
    requires forall i :: 0 <= i < |s| ==> p(s[i])
    ensures Filter(s, p) == s
  {
    if |s| > 0 {
      FilterKeepsAll(s[1..], p);
    }
  }
}

=== FILE: store.dfy ===
/** The two browser-storage entries the application keeps, as values: the
    signed-in user and the memo collection. Reading them on start-up and
    writing them after each event are pure functions on those values; the
    JSON encoding in between is not modelled. */
module Store {
  import opened Wrappers
  import opened Types
  import Controller
  import Auth

  /** The stored session and memo collection; `None` is an absent entry. */
  datatype Storage = Storage(session: Option<User>, memos: Option<seq<Memo>>)

  /** Start-up: a stored user is signed in again and sees the landing screen,
      otherwise the sign-in screen is shown; the stored collection, if any, is
      loaded. */
  function Restore(stored: Storage): (r: Controller.State)
    ensures stored.session.Some? ==> r.user == stored.session && r.screen == LandingScreen
    ensures stored.session.None? ==> r.user.None? && r.screen == AuthScreen
    ensures stored.memos.Some? ==> r.memos == stored.memos.value
    ensures stored.memos.None? ==> r.memos == []
    ensures Controller.Valid(r) && r.current.None? && r.error.None?
  {
    Controller.Blank.(
      user := stored.session,
      screen := if stored.session.Some? then LandingScreen else AuthScreen,
      memos := stored.memos.GetOr([]))
  }

  /** The collection is written whenever it changes, but only when it is not
      empty; an empty collection leaves the stored one in place. */
  function SaveMemos(stored: Storage, memos: seq<Memo>): (r: Storage)
    ensures |memos| > 0 ==> r.memos == Some(memos)
    ensures |memos| == 0 ==> r == stored
    ensures r.session == stored.session
  {
    if |memos| > 0 then stored.(memos := Some(memos)) else stored
  }

  /** A sign-in whose delay ran out stores the user it built. */
  function SaveSession(stored: Storage, u: User): (r: Storage)
    ensures r.session == Some(u) && r.memos == stored.memos
  {
    stored.(session := Some(u))
  }

  /** Signing out removes the stored user and nothing else. */
  function ClearSession(stored: Storage): (r: Storage)
    ensures r.session.None? && r.memos == stored.memos
  {
    stored.(session := None)
  }

  /** The storage writes that follow an event: the session entry for a
      delivered sign-in (written together with the hand-over, when the delay
      runs out, not on submission) or a sign-out, then the collection effect. The collection effect is
      applied after every event; when the collection did not change it writes
      what is stored already (see `StepSynced`). */
  function Persist(stored: Storage, st: Controller.State, e: Controller.Event): (r: Storage)
    ensures e.SignInDelivered? && e.j < |st.pendingSignIns| ==>
      r.session == Some(Auth.Submit(st.pendingSignIns[e.j], e.freshId).stored)
    ensures e.SignOutPressed? ==> r.session.None?
    ensures !(e.SignInDelivered? && e.j < |st.pendingSignIns|) && !e.SignOutPressed? ==>
      r.session == stored.session
    ensures |Controller.Step(st, e).memos| > 0 ==> r.memos == Some(Controller.Step(st, e).memos)
    ensures |Controller.Step(st, e).memos| == 0 ==> r.memos == stored.memos
  {
    var session := match e
      case SignInDelivered(j, freshId) =>
        if j < |st.pendingSignIns| then SaveSession(stored, Auth.Submit(st.pendingSignIns[j], freshId).stored)
        else stored
      case SignOutPressed => ClearSession(stored)
      case _ => stored;
    SaveMemos(session, Controller.Step(st, e).memos)
  }

  /** Storage agrees with the running application: the stored user is the
      signed-in one, and a non-empty collection is the stored one. */
  predicate Synced(stored: Storage, st: Controller.State)
  {
    && stored.session == st.user
    && (|st.memos| > 0 ==> stored.memos == Some(st.memos))
  }

  /** Right after start-up the application agrees with storage. */
  lemma RestoreSynced(stored: Storage)
    ensures Synced(stored, Restore(stored))
  {
  }

  /** Every event, followed by its storage writes, keeps storage and the
      application in agreement. */
  lemma StepSynced(stored: Storage, st: Controller.State, e: Controller.Event)
    requires Synced(stored, st)
    ensures Synced(Persist(stored, st, e), Controller.Step(st, e))
  {
    var after := Controller.Step(st, e);
    var p := Persist(stored, st, e);
    assert p.session == after.user by {
      match e
      case SignInSubmitted(form) =>
      case SignInDelivered(j, freshId) =>
        if j < |st.pendingSignIns| {
          assert p.session == Some(Auth.Submit(st.pendingSignIns[j], freshId).stored);
        }
      case SignOutPressed =>
      case Submitted(input) =>
        assert after.user == st.user;
      case Answered(k, ai, env) =>
        assert after.user == st.user;
      case HistoryPressed =>
      case LandingPressed =>
      case MemoOpened(m) =>
      case MemoDeleted(id) =>
    }
  }

  /** A reload with a non-empty collection resumes where the user was: the
      same user (on the landing screen) or the sign-in screen, and the same
      collection. */
  lemma ReloadResumes(stored: Storage, st: Controller.State)
    requires Synced(stored, st) && |st.memos| > 0
    ensures Restore(stored).user == st.user
    ensures Restore(stored).screen == if st.user.Some? then LandingScreen else AuthScreen
    ensures Restore(stored).memos == st.memos
  {
  }

  /** A delivered sign-in survives a reload, and so does a sign-out; a
      sign-in still waiting out its delay has written nothing, so a reload
      before it is delivered restores whatever was stored before. */
  lemma {:induction false} SessionSurvivesReload(stored: Storage, st: Controller.State, j: nat, freshId: string, form: Auth.AuthForm)
    requires j < |st.pendingSignIns|
    ensures var after := Persist(stored, st, Controller.SignInDelivered(j, freshId));
      && Restore(after).user == Some(Auth.Submit(st.pendingSignIns[j], freshId).signedIn)
      && Restore(after).screen == LandingScreen
    ensures Restore(Persist(stored, st, Controller.SignOutPressed)).screen == AuthScreen
    ensures Restore(Persist(stored, st, Controller.SignInSubmitted(form))).user == stored.session
  {
    var u := Auth.Submit(st.pendingSignIns[j], freshId);
    assert Persist(stored, st, Controller.SignInDelivered(j, freshId)).session == Some(u.stored);
    assert Persist(stored, st, Controller.SignOutPressed).session.None?;
    assert Persist(stored, st, Controller.SignInSubmitted(form)).session == stored.session;
  }

  /** Deleting the only memo empties the collection, but storage keeps it, so
      it is back after the next reload. */
  lemma DeletedLastMemoReturns(stored: Storage, st: Controller.State, m: Memo)
    requires Synced(stored, st) && st.memos == [m]
    ensures Controller.Step(st, Controller.MemoDeleted(m.id)).memos == []
    ensures Restore(Persist(stored, st, Controller.MemoDeleted(m.id))).memos == [m]
  {
    assert Controller.DeleteMemo(st, m.id).memos == [];
  }
}

=== FILE: text.dfy ===
/** The JavaScript string operations the application relies on, over strings as
    sequences of characters: `split` and `join` on a one-character separator,
    `includes`, and `toLowerCase` restricted to ASCII letters. */
module Text {

  /** `s.split(c)`: the maximal runs of `s` between occurrences of `c`. There is
      always at least one field, and no field holds the separator. */
  function Split(s: string, c: char): (r: seq<string>)
    ensures |r| >= 1
    ensures forall i :: 0 <= i < |r| ==> c !in r[i]
    decreases |s|
  {
    if |s| == 0 then [""]
    else
      var rest := Split(s[1..], c);
      assert s == [s[0]] + s[1..];
      if s[0] == c then [""] + rest
      else [[s[0]] + rest[0]] + rest[1..]
  }

  /** `ls.join(c)`: the fields with one `c` between neighbours. */
  function Join(ls: seq<string>, c: char): string
  {
    if |ls| == 0 then ""
    else if |ls| == 1 then ls[0]
    else ls[0] + [c] + Join(ls[1..], c)
  }

  /** Joining two non-empty lists of fields is joining each and putting one
      separator between them. */
  lemma {:induction false} JoinAppend(a: seq<string>, b: seq<string>, c: char)
    requires |a| >= 1 && |b| >= 1
    ensures Join(a + b, c) == Join(a, c) + [c] + Join(b, c)
    decreases |a|
  {
    if |a| == 1 {
      assert a + b == [a[0]] + b;
      assert (a + b)[1..] == b;
    } else {
      JoinAppend(a[1..], b, c);
      assert (a + b)[1..] == a[1..] + b;
      assert (a + b)[0] == a[0];
    }
  }

  /** Joining a field in front of a non-empty list. */
  lemma JoinCons(x: string, rest: seq<string>, c: char)
    requires |rest| >= 1
    ensures Join([x] + rest, c) == x + [c] + Join(rest, c)
  {
    assert ([x] + rest)[1..] == rest;
  }

  /** A field that is itself a join can be replaced by the fields it joins. */
  lemma JoinInline(a: seq<string>, b: seq<string>, rest: seq<string>, c: char)
    requires |a| >= 1 && |b| >= 1 && |rest| >= 1
    ensures Join(a + ([Join(b, c)] + rest), c) == Join(a + (b + rest), c)
  {
    var jb := Join(b, c);
    JoinAppend(a, [jb] + rest, c);
    JoinCons(jb, rest, c);
    JoinAppend(b, rest, c);
    JoinAppend(a, b + rest, c);
  }

  /** Fields with the same join can be swapped behind a common prefix. */
  lemma JoinCongruence(a: seq<string>, y: seq<string>, z: seq<string>, c: char)
    requires |a| >= 1 && |y| >= 1 && |z| >= 1
    requires Join(y, c) == Join(z, c)
    ensures Join(a + y, c) == Join(a + z, c)
  {
    JoinAppend(a, y, c);
    JoinAppend(a, z, c);
  }

  /** Joining the fields of a split gives back the original string. */
  lemma {:induction false} JoinSplit(s: string, c: char)
    ensures Join(Split(s, c), c) == s
    decreases |s|
  {
    if |s| > 0 {
      var rest := Split(s[1..], c);
      JoinSplit(s[1..], c);
      if s[0] == c {
        assert Split(s, c) == [""] + rest;
        assert Join([""] + rest, c) == "" + [c] + Join(rest, c);
      } else if |rest| == 1 {
        assert Split(s, c) == [[s[0]] + rest[0]];
      } else {
        var fields := [[s[0]] + rest[0]] + rest[1..];
        assert Split(s, c) == fields;
        assert fields[1..] == rest[1..];
        assert Join(fields, c) == [s[0]] + (rest[0] + [c] + Join(rest[1..], c));
      }
    }
  }

  /** Splitting a string whose leading part has no separator: that part is
      glued to the first field of the remainder. */
  lemma {:induction false} SplitSeparatorFree(a: string, t: string, c: char)
    requires c !in a
    ensures Split(a + t, c) == [a + Split(t, c)[0]] + Split(t, c)[1..]
    decreases |a|
  {
    if |a| == 0 {
      assert a + t == t;
      assert a + Split(t, c)[0] == Split(t, c)[0];
      assert Split(t, c) == [Split(t, c)[0]] + Split(t, c)[1..];
    } else {
      assert (a + t)[0] == a[0];
      assert (a + t)[1..] == a[1..] + t;
      SplitSeparatorFree(a[1..], t, c);
      assert [a[0]] + (a[1..] + Split(t, c)[0]) == a + Split(t, c)[0];
    }
  }

  /** A string without the separator is a single field. */
  lemma SplitNoSeparator(s: string, c: char)
    requires c !in s
    ensures Split(s, c) == [s]
  {
    SplitSeparatorFree(s, "", c);
    assert s + "" == s;
  }

  /** A separator-free field followed by the separator splits off as the first
      field, and the rest is split on its own. */
  lemma SplitAfterField(a: string, t: string, c: char)
    requires c !in a
    ensures Split(a + [c] + t, c) == [a] + Split(t, c)
  {
    assert a + [c] + t == a + ([c] + t);
    SplitSeparatorFree(a, [c] + t, c);
    assert ([c] + t)[0] == c;
    assert ([c] + t)[1..] == t;
    assert Split([c] + t, c) == [""] + Split(t, c);
    assert a + "" == a;
    assert ([""] + Split(t, c))[1..] == Split(t, c);
  }

  /** Splitting the join of separator-free fields gives back the fields. */
  lemma {:induction false} SplitJoin(ls: seq<string>, c: char)
    requires |ls| >= 1
    requires forall i :: 0 <= i < |ls| ==> c !in ls[i]
    ensures Split(Join(ls, c), c) == ls
  {
    if |ls| == 1 {
      SplitNoSeparator(ls[0], c);
    } else {
      SplitJoin(ls[1..], c);
      SplitAfterField(ls[0], Join(ls[1..], c), c);
      assert ls == [ls[0]] + ls[1..];
    }
  }

  /** The first field of a split is the longest separator-free prefix. */
  lemma {:induction false} FirstField(s: string, c: char)
    ensures Split(s, c)[0] <= s
    ensures |Split(s, c)[0]| == |s| || s[|Split(s, c)[0]|] == c
    decreases |s|
  {
    if |s| > 0 && s[0] != c {
      FirstField(s[1..], c);
      var f := Split(s[1..], c)[0];
      assert Split(s, c)[0] == [s[0]] + f;
      assert s == [s[0]] + s[1..];
    }
  }

  /** When a split has more than one field, the first field ends at a
      separator and the remaining fields are the split of what follows it. */
  lemma SplitAtFirst(s: string, c: char)
    requires |Split(s, c)| > 1
    ensures var f0 := Split(s, c)[0];
      && |f0| < |s| && s[|f0|] == c
      && Split(s, c) == [f0] + Split(s[|f0| + 1..], c)
  {
    var f0 := Split(s, c)[0];
    FirstField(s, c);
    if |f0| == |s| {
      assert f0 == s;
      SplitNoSeparator(s, c);
      assert false;
    }
    var t := s[|f0| + 1..];
    assert s == f0 + [c] + t;
    SplitAfterField(f0, t, c);
  }

  /** When a split has a second field, the string holds the first field, the
      separator, the second field, and then either nothing or another separator. */
  lemma SecondField(s: string, c: char)
    requires |Split(s, c)| > 1
    ensures var f0, f1 := Split(s, c)[0], Split(s, c)[1];
      && |f0| + 1 + |f1| <= |s|
      && s[..|f0|] == f0 && s[|f0|] == c
      && s[|f0| + 1..|f0| + 1 + |f1|] == f1
      && (|f0| + 1 + |f1| == |s| || s[|f0| + 1 + |f1|] == c)
  {
    var f0 := Split(s, c)[0];
    FirstField(s, c);
    SplitAtFirst(s, c);
    var t := s[|f0| + 1..];
    var f1 := Split(t, c)[0];
    FirstField(t, c);
    assert Split(s, c)[1] == f1;
    assert f1 == t[..|f1|];
    assert s[|f0| + 1..][..|f1|] == s[|f0| + 1..|f0| + 1 + |f1|];
  }

  /** A separator-free `b` followed by nothing or by a separator is the
      first field. */
  lemma FirstFieldOf(b: string, rest: string, c: char)
    requires c !in b
    requires rest == [] || rest[0] == c
    ensures Split(b + rest, c)[0] == b
  {
    if rest == [] {
      assert b + rest == b;
      SplitNoSeparator(b, c);
    } else {
      var t := rest[1..];
      assert b + rest == b + [c] + t;
      SplitAfterField(b, t, c);
    }
  }

  /** A string that starts with `a`, then the separator, then `b`, then either
      nothing or another separator, has `b` as its second field. */
  lemma SecondFieldOf(a: string, b: string, rest: string, c: char)
    requires c !in a && c !in b
    requires rest == [] || rest[0] == c
    ensures |Split(a + [c] + b + rest, c)| > 1
    ensures Split(a + [c] + b + rest, c)[1] == b
  {
    var tail := b + rest;
    assert a + [c] + b + rest == a + [c] + tail;
    SplitAfterField(a, tail, c);
    FirstFieldOf(b, rest, c);
  }

  /** Pattern `p` occurs in `t` starting at index `i`. */
  ghost predicate OccursAt(t: string, p: string, i: int)
  {
    0 <= i && i + |p| <= |t| && t[i..i + |p|] == p
  }

  /** `t.includes(p)`: `p` occurs somewhere in `t`, checked left to right. */
  predicate Includes(t: string, p: string)
    decreases |t|
  {
    p <= t || (|t| > 0 && Includes(t[1..], p))
  }

  /** `Includes` holds exactly when the pattern occurs at some index. */
  lemma {:induction false} IncludesOccurs(t: string, p: string)
    ensures Includes(t, p) <==> exists i :: OccursAt(t, p, i)
    decreases |t|
  {
    if |t| > 0 {
      IncludesOccurs(t[1..], p);
      if Includes(t[1..], p) {
        var i :| OccursAt(t[1..], p, i);
        assert t[1..][i..i + |p|] == t[i + 1..i + 1 + |p|];
        assert OccursAt(t, p, i + 1);
      }
      if exists i :: OccursAt(t, p, i) {
        var i :| OccursAt(t, p, i);
        if i > 0 {
          assert t[1..][i - 1..i - 1 + |p|] == t[i..i + |p|];
          assert OccursAt(t[1..], p, i - 1);
        }
      }
    }
    if p <= t {
      assert OccursAt(t, p, 0);
    }
    if OccursAt(t, p, 0) {
      assert p <= t;
    }
  }

  /** A pattern longer than the text is never included in it. */
  lemma {:induction false} IncludesNeedsRoom(t: string, p: string)
    requires |p| > |t|
    ensures !Includes(t, p)
    decreases |t|
  {
    if |t| > 0 {
      IncludesNeedsRoom(t[1..], p);
    }
  }

  /** `toLowerCase` on one character, for ASCII letters. */
  function LowerChar(c: char): char
  {
    if 'A' <= c <= 'Z' then (c as int + 32) as char else c
  }

  /** `toLowerCase`, letter by letter over ASCII. */
  function Lower(s: string): (r: string)
    ensures |r| == |s|
  {
    seq(|s|, i requires 0 <= i < |s| => LowerChar(s[i]))
  }
}

=== FILE: types.dfy ===
/** The records the application passes around: the signed-in user, a meeting
    memo with its action items, the screen being shown, and the structured
    answer of the summarisation service. */
module Types {
  import opened Wrappers

  /** The mock session user. */
  datatype User = User(id: string, email: string, name: string)

  /** One task and the person responsible for it. */
  datatype ActionItem = ActionItem(task: string, owner: string)

  /** One processed meeting. `timestamp` is milliseconds since the epoch;
      `transcript` is optional in the stored record. */
  datatype Memo = Memo(
    id: string,
    timestamp: int,
    title: string,
    summary: string,
    keyPoints: seq<string>,
    actionItems: seq<ActionItem>,
    followUps: seq<string>,
    transcript: Option<string>,
    userId: string)

  /** The screen currently shown; exactly one at a time. */
  datatype Screen = AuthScreen | LandingScreen | ProcessingScreen | ResultScreen | HistoryScreen

  /** The structured answer of the summarisation service; every field is
      mandatory in the response schema. */
  datatype GeminiResponse = GeminiResponse(
    summary: string,
    keyPoints: seq<string>,
    actionItems: seq<ActionItem>,
    followUps: seq<string>,
    transcript: string)
}

=== FILE: wrappers.dfy ===
/** Optional values and success/failure results, used for the places where the
    application works with `null`/`undefined` or with a rejected promise. */
module Wrappers {

  /** A value that may be absent (`null` or `undefined` in the application). */
  datatype Option<+T> = None | Some(value: T) {

    /** The wrapped value, or `default` when absent. */
    function GetOr(default: T): T {
      match this
      case Some(v) => v
      case None => default
    }
  }

  /** The outcome of a step that either produces a value or fails with an error
      (a resolved or a rejected promise). */
  datatype Result<+R, +E> = Success(value: R) | Failure(error: E)
}
